=== FILE: README.md ===
# Recursive-descent parser for a tiny markup language, in Dafny

This project models `parser.py`, a recursive-descent parser for a small
HTML-like markup. A lexer turns the input into tokens: text runs, bracketed
keywords from a fixed list of ten tag names, INVALID tokens and an end-of-input
marker `$`. The parser pretty-prints the document with two spaces of indentation
per nesting level. It keeps a stack of open tags and stops on the first error.

The model is a set of pure functions:

- `Tokens` holds the token kinds, the keyword list and the two character sets
  the lexer reads runs from.
- `Lexer` holds `nextToken` and its helpers, over the input string and a cursor.
  Next to them sits a reference description (`TokenAt`, `TagAt`, `Scanned`)
  of which token starts at which character. `NextToken` is proved sound
  against that description (its `ensures`) and complete (`NextTokenComplete`).
  Together these say the lexer computes exactly the token the description
  assigns.
- `LexerProps` states the lexer's behaviour case by case: text runs, keywords,
  `<>`, unknown and unterminated tags, `$`, and any other character.
- `Parser` holds the grammar rules `webpage`, `textStmt`, `keywordStmt` and
  `listItemStmt`, together with `match` and the constructor.
  - The rules are mutually recursive functions threading one parser state:
    lookahead, cursor, open-tag stack, indentation level and the lines printed
    so far.
  - Every `sys.exit(1)` and every Python exception the code raises itself
    (IndexError, AttributeError, ValueError) becomes a `Halt` value. It carries the reason and everything printed up
    to that point.
  - All the functions are total. A termination measure over the cursor and
    the lookahead kind shows the parser always stops.
- `Steps`, `ParserProps` and `Documents` prove:
  - properties relating several rules: the indentation invariant of the main
    loop, stack discipline for closers, and the fixed shape of the `<ul>`
    statement;
  - the exact output for whole families of documents.
- `Scenarios` proves the output of six concrete inputs from end to end.

Some behaviour of the code is easy to misread. The model follows the code in
every such case:

- Text directly inside `<body>` is printed at level 0, not indented: the
  level is never raised for `<body>`. So `<body>google</body>` prints `google`
  unindented. In `<body><b>hi</b></body>`, `<b>` and `</b>` are unindented and
  only `hi` is indented once (`Scenarios.Google`, `Scenarios.BoldText`).
- A mismatched closer prints its diagnostic at the current level and stops
  (`Scenarios.WrongCloser`).
- A first token that is not a keyword does not reach the "Expected <body>"
  check. `match` calls an error method the class never defines, so the parse
  dies inside `match` with nothing printed (`Scenarios.TextBeforeBody`).
- `<ul>` is printed once by `listItemStmt`. The `<ul>` branch of
  `keywordStmt` then reads one more token, discarding the token that followed
  the list item unexamined. In `<body><ul>item</body>` the discarded token is
  `</body>`. So the main loop ends at end of input and `<body>` is reported
  unclosed (`Scenarios.ItemList`).
- The item of a list is any text statement, a closer included. So in
  `<body><ul></body>x</body>` the first `</body>` pops `<body>` inside the list
  item. The final `</body>` then finds no `<body>` to remove, which is a
  ValueError (`Scenarios.BodyClosedTwice`).
- After the loop, the unclosed-tag message lists every open tag. It is printed
  once per open tag.
- The indentation level is not a count of open tags. `<body>` raises no level,
  and each `<ul>` statement leaves one level raised with no tag open for it.
  Inside a `<ul>` whose item is a closer, the level briefly drops to -1: the
  closer lowers it before the `<ul>` branch raises it again
  (`Documents.ListItemClosesBody`). The level is never negative between
  statements of the main loop, which is what `Parser.Loop` states.

## Model

| member | source | states |
|---|---|---|
| Lexer.Advance | parser.py:68-71 | `nextChar` moves the cursor one character forward, and fails with IndexError exactly when no character is left |
| Lexer.SkipSpaces | parser.py:54-57 | the space-skipping loop stops on the first non-space character at or after the cursor, with only spaces before it; it fails exactly when only spaces remain to the end of the input |
| Lexer.ConsumeWhile | parser.py:77-79 | the `while ch in charSet` loop stops on the first character outside the set, everything before it being in the set; it fails only when the set's characters run to the end of the input |
| Lexer.ConsumeRun | parser.py:73-80 | `consumeChars` takes the current character whatever it is, then the longest run from the set; the cursor ends strictly past the start, on the first character outside the set |
| Lexer.CheckValidKeyword | parser.py:89-101 | the token read after `<` is the one the reference tag description assigns: `<>` is INVALID `<>`, a bracketed keyword is KEYWORD, a bracketed unknown name or a name without `>` is INVALID with an empty value |
| Lexer.Classify | parser.py:58-66 | on a non-space character, the token and cursor are the ones the reference description assigns: a text run, a tag, `$` as end of input, or any other character as a one-character INVALID that does not advance the cursor |
| Lexer.NextToken | parser.py:54-66 | soundness: the token returned is the one the reference description allows after the spaces, it is well formed (a keyword token is a bracketed name from KEYWORDS), and the cursor advances past every token except a bad character |
| Lexer.NextTokenComplete | parser.py:54-101 | completeness: whatever token and cursor the reference description allows is exactly what `nextToken` returns |
| Lexer.SkipSpacesComplete | parser.py:55-57 | from any cursor, the space-skipping loop reaches the first non-space character |
| Lexer.ConsumeWhileComplete | parser.py:77-79 | the run loop stops exactly at the first character outside the set |
| Lexer.ClassifyComplete | parser.py:58-101 | each case of the reference description is produced by the matching branch of `nextToken` and `checkValidKeyword` |
| Lexer.ScannedIsDeterministic | parser.py:54-101 | the reference description admits at most one token and cursor for a given input and position |
| LexerProps.KeywordNamesAreTagNames | parser.py:15 | every name in KEYWORDS is non-empty, made of letters, digits and `/`, and does not start with `>`, so the tag branch can read each of them |
| LexerProps.TextTokenIsMaximalRun | parser.py:58-60 | a STR token is a non-empty run of ASCII letters and digits starting with a letter or digit, copied verbatim from the input after the spaces, and the character after it is not a letter or digit |
| LexerProps.WordIsText | parser.py:58-60 | conversely, a maximal run of letters and digits after the spaces is read as one STR token with exactly that text |
| LexerProps.KeywordTokenIsBracketedKeyword | parser.py:89-101 | a KEYWORD token is `<`, a name from KEYWORDS and `>`, and is exactly the input text consumed after the spaces |
| LexerProps.KeywordIsRecognised | parser.py:99-100 | `<`, a name from KEYWORDS and `>` is read as that keyword, with the cursor just past `>` |
| LexerProps.EmptyTagIsInvalid | parser.py:92-93 | `<>` is INVALID with the value `<>` |
| LexerProps.UnknownTagIsInvalid | parser.py:99-101 | a bracketed name that is not in KEYWORDS is INVALID with an empty value, and the `>` is consumed |
| LexerProps.UnterminatedTagIsInvalid | parser.py:95-98 | a tag name followed by a character other than `>` is INVALID with an empty value, and that character is skipped as well |
| LexerProps.DollarIsEndOfInput | parser.py:63-64 | `$` is the end-of-input token with an empty value |
| LexerProps.OtherCharIsInvalid | parser.py:65-66 | any other character is a one-character INVALID token, and the cursor stays on it |
| LexerProps.SingleCharInvalidDoesNotAdvance | parser.py:65-66 | conversely, a one-character INVALID token leaves the cursor on that very character |
| LexerProps.TrailingSpacesOverrun | parser.py:68-71 | when only spaces remain, reading a token indexes past the end of the string (IndexError) |
| Parser.Drop | parser.py:154 | Python's `x[n:]` is the suffix of `x` without its first `n` characters, and empty when `n` is past the end |
| Parser.Indent | parser.py:145 | `'  ' * iLvl` is two spaces per level and empty for a level of zero or below |
| Parser.IndexOf | parser.py:129 | `list.remove` deletes the first occurrence: the index found holds the value and no earlier position does |
| Parser.Repeat | parser.py:133-134 | the report loop prints the same message once per element of the stack |
| Parser.NextLookahead | parser.py:146 | reading the next token changes only the lookahead and the cursor, gives the token the lexer's reference description assigns, never raises the termination measure, and stops the parse with what was printed so far when the lexer overruns |
| Parser.TextStmt | parser.py:137-146 | INVALID prints `ERROR INVALID TOKEN` and stops; end of input changes nothing; text is printed at the current indentation with stack and level unchanged; a keyword is handed to the keyword statement; output only grows, and the indentation invariant quantity is kept |
| Parser.KeywordStmt | parser.py:148-171 | a closer goes to the closing branch, `<ul>` to the list branch and any other keyword to the opening branch; each step consumes input and keeps `level - stack depth - lists done` |
| Parser.CloseTag | parser.py:152-161 | an empty stack is an IndexError with nothing printed; a closer whose name differs from the stack top prints the mismatch diagnostic at the current level and stops; otherwise the closer is printed one level lower and exactly the top is popped |
| Parser.OpenTag | parser.py:167-171 | an opener is printed at the current level, pushed, and raises the level by one |
| Parser.ListStmt | parser.py:163-165 | the `<ul>` branch is the list item followed by one level more and one more token read; stack and output are those the list item left; when the list item stops, the branch stops with the same result |
| Parser.ListItemStmt | parser.py:174-181 | the first line it prints is `<ul>` at the current level and its last line is an unindented `</ul>`; output only grows |
| Parser.Loop | parser.py:124-125 | the main loop reads nothing and changes nothing when the lookahead is already `</body>` or end of input, and otherwise ends only on such a lookahead, extending the output; it keeps `iLvl == len(keywordsSeen) - 1 + lists done` (with `<body>` at the bottom of the stack while no list has run) from entry to exit, so the level is never negative between statements of the main loop (inside one statement it can be) |
| Parser.Match | parser.py:183-189 | `match` succeeds exactly when the lookahead has the expected kind and the next token can be read, and then only the lookahead and cursor move, to the next token; a lookahead of the wrong kind stops it with nothing more printed (the AttributeError of the undefined `self.error`), and reading past the padded input stops it as an overrun with nothing more printed (the IndexError of `nextChar`) |
| Parser.CloseBody | parser.py:127-129 | only a `</body>` lookahead does anything: it prints `</body>` and removes the first `<body>` from the stack, keeping the other tags in order and the rest of the state as it was (so the stack loses exactly one `<body>`), or raises ValueError when no `<body>` is open |
| Parser.RemoveFirst | parser.py:129 | `list.remove` deletes the first occurrence of the value and keeps everything before and after it in order |
| Parser.Join | parser.py:134 | `",".join` starts with the first tag, ends with the last, and is as long as all the tags plus one separator per gap; nothing joins to the empty string |
| Parser.Pad | parser.py:105 | the lexer reads the input followed by the end marker `$` and one space |
| Parser.Run | parser.py:104-134 | a parse fails with IndexError and nothing printed when the first token cannot be read; a successful parse began with the keyword `<body>`, printed `<body>` first, and printed one report per tag still open as its last lines |
| Parser.Webpage | parser.py:113-121 | a parse succeeds only when the first token is `<body>`, printed first; a first token that is not a keyword fails in `match`; another keyword prints `Expected <body> Recieved: ...` and stops; the last lines are one report per tag left open |
| Parser.WebpageBody | parser.py:124-134 | a successful finish means the main loop and the closing `</body>` step both succeeded, and the stack reported is the one they left; the final lines are the unclosed-tags message repeated once per tag on it |
| Parser.UnclosedMessage | parser.py:134 | the report reads `ERROR: Expected closing's for tags [`, the open tags bottom first and comma-separated (exactly `",".join` of the stack), then `] were not found!`, with its length fixed by the tags |
| Parser.MismatchMessage | parser.py:155 | the diagnostic reads `ERROR: Expecting closing bracket for keyword: `, the open tag, ` ... Found: ` and the closer found, in that order |
| Parser.Init | parser.py:104-108 | the constructor reads the first token of the input padded with `$ `, with an empty stack, level 0 and nothing printed |
| Parser.LoopStepKeepsInvariant | parser.py:152-170 | one text statement of the main loop keeps `iLvl == len(keywordsSeen) - 1 + lists done`, and keeps `<body>` at the bottom of the stack while no list has run |
| ParserProps.WebpageEntersLoopWithInvariant | parser.py:115-121 | `webpage` enters its main loop with the invariant established |
| Parser.OnlyBodyCloserMatchesBody | parser.py:154 | of all keywords, only `</body>` passes the closer test against `<body>` |
| ParserProps.ClosingTagNeedsMatchingTop | parser.py:152-161 | a closer stops the parse with a stack error if and only if it does not name the innermost open tag |
| ParserProps.CloserAlignsWithOpener | parser.py:159-170 | a closer is printed at the indentation its own opener was printed at |
| ParserProps.OpenerPushes | parser.py:167-170 | after an opener: pushed, printed at the old level, level one higher |
| ParserProps.CloserPops | parser.py:157-161 | after a closer that succeeds: it named the top, the top is popped, and it was printed one level lower |
| ParserProps.ListItemAtEndOfInput | parser.py:174-181 | `<ul>` then end of input prints `<ul>` and `</ul>` and leaves the level where it was |
| ParserProps.NothingAfterEndMarker | parser.py:105 | when the input contains no `$`, the end-of-input token of the padded input leaves the cursor on the final space, and any further read overruns |
| ParserProps.ListAtEndOfInputOverruns | parser.py:163-171 | when the input contains no `$`, `<ul>` at the very end of the input prints `<ul>` and `</ul>`, then overruns reading the token after the empty item |
| ParserProps.ListWithTextDiscardsNextToken | parser.py:163-181 | `<ul>` with one text item prints `<ul>`, the item one level deeper and `</ul>`, discards the token after the item, and ends one level deeper than it started |
| ParserProps.ListItemWithText | parser.py:174-181 | a list item with text ends with the token after the text as lookahead and the level back where it was |
| ParserProps.RunNeedsBodyFirst | parser.py:113-121 | every successful parse starts with the keyword `<body>` and prints it first |
| ParserProps.RunRejectsOtherFirstToken | parser.py:115-119 | a first token that is not a keyword fails in `match` with nothing printed; any other first keyword prints `Expected <body> Recieved:` and stops |
| ParserProps.CloseBodyAtBottom | parser.py:127-129 | with `<body>` at the bottom of the stack, `</body>` pops exactly that entry and leaves the other open tags in their order |
| ParserProps.CloseBodyRemovesFirstBody | parser.py:129 | of two open `<body>` entries the first is removed: the stack `<body>`, `<b>`, `<body>` becomes `<b>`, `<body>` |
| ParserProps.JoinAppend | parser.py:134 | joining one more tag appends the separator (a comma in the report) and that tag to the joined text |
| Documents.BodyText | parser.py:113-146 | `<body>` text `</body>` prints `<body>`, the text unindented and `</body>`, leaving no tag open |
| Documents.BodyWithOneItem | parser.py:113-181 | `<body><ul>` item then any token and end of input prints the list, loses the token and reports `<body>` unclosed |
| Documents.MismatchInsideBody | parser.py:113-171 | `<body>`, an opener, text and a closer that does not match stops at the closer, with the diagnostic at the level inside the opener |
| Documents.NestedInsideBody | parser.py:113-171 | `<body>`, an opener, text, its closer and `</body>` prints the tags unindented and only the text indented, leaving no tag open |
| Documents.ListClosesBody | parser.py:113-181 | `<body><ul></body>`, any token and `</body>` stops with the ValueError of removing `<body>` after the list item already closed it |
| Scenarios.Google | parser.py:104-146 | `<body>google</body>` prints `<body>`, `google`, `</body>` |
| Scenarios.TextBeforeBody | parser.py:183-189 | `hello<body></body>` stops inside `match` with nothing printed |
| Scenarios.WrongCloser | parser.py:148-161 | `<body><b>hi</i></body>` prints `<body>`, `<b>`, `  hi`, then the mismatch diagnostic for `<b>` and `</i>`, and stops |
| Scenarios.BoldText | parser.py:148-171 | `<body><b>hi</b></body>` prints `<body>`, `<b>`, `  hi`, `</b>`, `</body>` |
| Scenarios.ItemList | parser.py:113-181 | `<body><ul>item</body>` prints `<body>`, `<ul>`, `  item`, `</ul>` and reports `<body>` unclosed |
| Scenarios.BodyClosedTwice | parser.py:124-181 | `<body><ul></body>x</body>` prints `<body>`, `<ul>`, `</body>`, `</ul>`, `</body>` and stops with the ValueError of line 129 |

## Left out

- Printing is modelled as the list of lines printed so far, held in the parser state.
- `sys.exit(1)` and the Python exceptions the code can raise (IndexError, AttributeError, ValueError) are `Halt` values carrying a reason and the output printed before the stop. The exception messages are not modelled.
- Lexer.Classify: text starts on an ASCII letter or digit, whereas `str.isalpha`/`str.isdigit` also accept other Unicode letters and digits. A non-ASCII letter would begin a STR token in Python but is a one-character INVALID token here.
- The lexer constructor on its own is not modelled. Its first read of `s[0]` is folded into the cursor, and the parser always hands it a padded, non-empty string.
- The `__main__` test driver is not modelled. It constructs lexers and parsers and prints their output.
- `Token.__repr__` and the trivial getters are not modelled. Tokens are plain values.
- The unused local `i` in `webpage` is not modelled.
- The final `iLvl += 1` in `webpage` happens after all printing and has no observable effect.
- Python's recursion limit is not modelled. `textStmt`, `keywordStmt` and `listItemStmt` recurse once per nested `<ul>` (parser.py:143, 164, 179), so a few hundred consecutive `<ul>` raise RecursionError in CPython. The model's recursion has no bound: it prints every list item and stops with `Overrun` at the end of the input.
- The model-only counter `lists` counts completed `<ul>` statements. It drives nothing and exists only to state the indentation invariant.

=== FILE: documents.dfy ===
/** Whole documents of a fixed shape, parsed for any tokens of the right
    kinds: what `webpage` prints for text, a nested tag, a mismatched closer
    and a list directly inside `<body>`. */
module Documents {
  import opened Results
  import opened Tokens
  import opened Lexer
  import opened Parser
  import opened LexerProps
  import opened ParserProps
  import opened Steps

  lemma BodyText(s: string, st: State, text: string, p1: nat, p2: nat)
    requires Valid(s, st) && st == State(Token(Keyword, "<body>"), st.pos, [], 0, [], 0)
    requires NextToken(s, st.pos) == Ok(Scan(Token(Str, text), p1))
    requires p1 < |s| && NextToken(s, p1) == Ok(Scan(Token(Keyword, "</body>"), p2))
    ensures Webpage(s, st).Ok?
    ensures Webpage(s, st).value.out == ["<body>", text, "</body>"]
    ensures Webpage(s, st).value.stack == []
  {
    TextIsNoTag(s, st.pos, text, p1);
    var st1 := st.(look := Token(Str, text), pos := p1);
    MatchStep(s, st, Token(Str, text), p1);
    var st4 := BodyTextAfterMatch(s, st1, p2);
    WebpageSteps(s, st, st1, st4.(out := st4.out[..2], stack := ["<body>"]), st4);
    assert st4.out + Repeat(UnclosedMessage([]), 0) == st4.out;
  }

  lemma BodyTextAfterMatch(s: string, st1: State, p2: nat) returns (st4: State)
    requires Valid(s, st1) && st1.look.kind == Str && st1.look.value != "</body>"
    requires st1.stack == [] && st1.level == 0 && st1.out == []
    requires NextToken(s, st1.pos) == Ok(Scan(Token(Keyword, "</body>"), p2))
    ensures st4.out == ["<body>", st1.look.value, "</body>"] && st4.stack == []
    ensures Loop(s, st1.(stack := st1.stack + ["<body>"], out := st1.out + ["<body>"])) == Ok(st4.(out := st4.out[..2], stack := ["<body>"]))
    ensures CloseBody(st4.(out := st4.out[..2], stack := ["<body>"])) == Ok(st4)
  {
    var st2 := st1.(stack := ["<body>"], out := ["<body>"]);
    assert st2 == st1.(stack := st1.stack + ["<body>"], out := st1.out + ["<body>"]);
    TextThenBodyCloser(s, st2, p2);
    assert Indent(0) + st1.look.value == st1.look.value;
    var st3 := st2.(look := Token(Keyword, "</body>"), pos := p2, out := st2.out + [Indent(st2.level) + st2.look.value]);
    assert st3.out == ["<body>", st1.look.value];
    CloseOnlyBody(st3);
    st4 := st3.(out := st3.out + ["</body>"], stack := []);
    assert st4.out[..2] == st3.out;
    assert st3 == st4.(out := st4.out[..2], stack := ["<body>"]);
  }

  /** `<body><ul>` x t2 then the end of input: the list is rendered, `t2` is
      lost, and `<body>` is reported unclosed. */
  lemma BodyWithOneItem(s: string, st: State, x: string, p1: nat, p2: nat, t3: Token, p3: nat, p4: nat)
    requires Valid(s, st) && st == State(Token(Keyword, "<body>"), st.pos, [], 0, [], 0)
    requires NextToken(s, st.pos) == Ok(Scan(Token(Keyword, "<ul>"), p1))
    requires p1 < |s| && NextToken(s, p1) == Ok(Scan(Token(Str, x), p2))
    requires p2 < |s| && NextToken(s, p2) == Ok(Scan(t3, p3))
    requires p3 < |s| && NextToken(s, p3) == Ok(Scan(Token(Eoi, ""), p4))
    ensures Webpage(s, st).Ok?
    ensures Webpage(s, st).value.out == ["<body>", "<ul>", "  " + x, "</ul>", UnclosedMessage(["<body>"])]
  {
    var st1 := st.(look := Token(Keyword, "<ul>"), pos := p1);
    MatchStep(s, st, Token(Keyword, "<ul>"), p1);
    var st3 := ItemListAfterMatch(s, st1, x, p2, t3, p3, p4);
    WebpageSteps(s, st, st1, st3, st3);
    assert Repeat(UnclosedMessage(["<body>"]), 1) == [UnclosedMessage(["<body>"])];
  }

  lemma ItemListAfterMatch(s: string, st1: State, x: string, p2: nat, t3: Token, p3: nat, p4: nat) returns (st3: State)
    requires Valid(s, st1) && st1.look == Token(Keyword, "<ul>")
    requires st1.stack == [] && st1.level == 0 && st1.out == [] && st1.lists == 0
    requires NextToken(s, st1.pos) == Ok(Scan(Token(Str, x), p2))
    requires p2 < |s| && NextToken(s, p2) == Ok(Scan(t3, p3))
    requires p3 < |s| && NextToken(s, p3) == Ok(Scan(Token(Eoi, ""), p4))
    ensures st3.stack == ["<body>"] && st3.out == ["<body>", "<ul>", "  " + x, "</ul>"] && st3.look.kind == Eoi
    ensures Loop(s, st1.(stack := st1.stack + ["<body>"], out := st1.out + ["<body>"])) == Ok(st3)
    ensures CloseBody(st3) == Ok(st3)
  {
    var st2 := st1.(stack := ["<body>"], out := ["<body>"]);
    assert st2 == st1.(stack := st1.stack + ["<body>"], out := st1.out + ["<body>"]);
    ListWithTextDiscardsNextToken(s, st2, x, p2, t3, p3, Token(Eoi, ""), p4);
    st3 := st2.(look := Token(Eoi, ""), pos := p4,
                out := st2.out + [Indent(st2.level) + "<ul>", Indent(st2.level + 1) + x, "</ul>"],
                level := st2.level + 1, lists := st2.lists + 1);
    ListLoop(s, st2, st3);
    ListLines(x);
  }

  lemma ListLines(x: string)
    ensures ["<body>"] + [Indent(0) + "<ul>", Indent(0 + 1) + x, "</ul>"] == ["<body>", "<ul>", "  " + x, "</ul>"]
  {
    assert Indent(0) + "<ul>" == "<ul>";
    assert Indent(1) == "  ";
  }

  /** `<body>` o x c with the closer `c` not matching the opener `o`: the
      parse stops at `c` with the diagnostic at the level inside `o`. */
  lemma MismatchInsideBody(s: string, st: State, o: string, x: string, c: string, p1: nat, p2: nat, p3: nat)
    requires Valid(s, st) && st == State(Token(Keyword, "<body>"), st.pos, [], 0, [], 0)
    requires !IsCloser(o) && o != "<ul>" && IsCloser(c) && c != "</body>" && Drop(o, 1) != Drop(c, 2)
    requires NextToken(s, st.pos) == Ok(Scan(Token(Keyword, o), p1))
    requires p1 < |s| && NextToken(s, p1) == Ok(Scan(Token(Str, x), p2))
    requires p2 < |s| && NextToken(s, p2) == Ok(Scan(Token(Keyword, c), p3))
    ensures Webpage(s, st) ==
            Err(Halt(MismatchedClose(o, c),
                     ["<body>", o, "  " + x, "  " + MismatchMessage(o, c)]))
  {
    var st1 := st.(look := Token(Keyword, o), pos := p1);
    MatchStep(s, st, Token(Keyword, o), p1);
    var h := MismatchAfterMatch(s, st1, x, c, p2, p3);
    WebpageStopsInLoop(s, st, st1, h);
  }

  lemma MismatchAfterMatch(s: string, st1: State, x: string, c: string, p2: nat, p3: nat) returns (h: Halt)
    requires Valid(s, st1) && st1.look.kind == Keyword && st1.stack == [] && st1.level == 0 && st1.out == [] && st1.lists == 0
    requires !IsCloser(st1.look.value) && st1.look.value != "<ul>"
    requires IsCloser(c) && c != "</body>" && Drop(st1.look.value, 1) != Drop(c, 2)
    requires NextToken(s, st1.pos) == Ok(Scan(Token(Str, x), p2))
    requires p2 < |s| && NextToken(s, p2) == Ok(Scan(Token(Keyword, c), p3))
    ensures Loop(s, st1.(stack := st1.stack + ["<body>"], out := st1.out + ["<body>"])) == Err(h)
    ensures h == Halt(MismatchedClose(st1.look.value, c),
                      ["<body>", st1.look.value, "  " + x,
                       "  " + MismatchMessage(st1.look.value, c)])
  {
    var o := st1.look.value;
    var st4 := OpenerAndText(s, st1, x, c, p2, p3);
    MismatchStep(s, st4);
    LoopStopsOnError(s, st4);
    h := TextStmt(s, st4).error;
    MismatchLines(o, x, c);
  }

  /** After `<body>` and an opener `o`: `o` and the text `x` are printed and
      the closer `c` is the lookahead, with `<body>` and `o` open. */
  lemma OpenerAndText(s: string, st1: State, x: string, c: string, p2: nat, p3: nat) returns (st4: State)
    requires Valid(s, st1) && st1.look.kind == Keyword && st1.stack == [] && st1.level == 0 && st1.out == [] && st1.lists == 0
    requires !IsCloser(st1.look.value) && st1.look.value != "<ul>"
    requires NextToken(s, st1.pos) == Ok(Scan(Token(Str, x), p2))
    requires p2 < |s| && NextToken(s, p2) == Ok(Scan(Token(Keyword, c), p3))
    ensures Valid(s, st4) && st4.look == Token(Keyword, c) && st4.pos == p3
    ensures st4.stack == ["<body>", st1.look.value] && st4.level == 1 && st4.lists == 0
    ensures st4.out == [] + ["<body>"] + [Indent(0) + st1.look.value] + [Indent(0 + 1) + x]
    ensures Loop(s, st1.(stack := st1.stack + ["<body>"], out := st1.out + ["<body>"])) == Loop(s, st4)
  {
    TextIsNoTag(s, st1.pos, x, p2);
    var st2 := st1.(stack := st1.stack + ["<body>"], out := st1.out + ["<body>"]);
    var st3 := OpenerInLoop(s, st2, Token(Str, x), p2);
    st4 := TextInLoop(s, st3, Token(Keyword, c), p3);
  }

  lemma TextIsNoTag(s: string, pos: nat, x: string, p: nat)
    requires pos < |s| && NextToken(s, pos) == Ok(Scan(Token(Str, x), p))
    ensures x != "</body>"
  {
    TextTokenIsMaximalRun(s, pos);
    assert IsLetter(x[0]) || IsDigit(x[0]);
  }

  lemma MismatchLines(o: string, x: string, c: string)
    ensures [] + ["<body>"] + [Indent(0) + o] + [Indent(0 + 1) + x]
              + [Indent(0 + 1) + MismatchMessage(o, c)]
            == ["<body>", o, "  " + x, "  " + MismatchMessage(o, c)]
  {
    assert Indent(0) + o == o;
    assert Indent(1) == "  ";
  }

  /** `<body>` o x c `</body>` with `c` closing `o`: `o` and `c` are printed
      at level 0 and only the text between them is indented. */
  lemma NestedInsideBody(s: string, st: State, o: string, x: string, c: string, p1: nat, p2: nat, p3: nat, p4: nat)
    requires Valid(s, st) && st == State(Token(Keyword, "<body>"), st.pos, [], 0, [], 0)
    requires !IsCloser(o) && o != "<ul>" && IsCloser(c) && c != "</body>" && Drop(o, 1) == Drop(c, 2)
    requires NextToken(s, st.pos) == Ok(Scan(Token(Keyword, o), p1))
    requires p1 < |s| && NextToken(s, p1) == Ok(Scan(Token(Str, x), p2))
    requires p2 < |s| && NextToken(s, p2) == Ok(Scan(Token(Keyword, c), p3))
    requires p3 < |s| && NextToken(s, p3) == Ok(Scan(Token(Keyword, "</body>"), p4))
    ensures Webpage(s, st).Ok?
    ensures Webpage(s, st).value.out == ["<body>", o, "  " + x, c, "</body>"]
    ensures Webpage(s, st).value.stack == []
  {
    var st1 := st.(look := Token(Keyword, o), pos := p1);
    MatchStep(s, st, Token(Keyword, o), p1);
    var st5 := NestedAfterMatch(s, st1, x, c, p2, p3, p4);
    CloseOnlyBody(st5);
    var st6 := st5.(out := st5.out + ["</body>"], stack := []);
    WebpageSteps(s, st, st1, st5, st6);
    assert st6.out + Repeat(UnclosedMessage([]), 0) == st6.out;
  }

  lemma NestedAfterMatch(s: string, st1: State, x: string, c: string, p2: nat, p3: nat, p4: nat) returns (st5: State)
    requires Valid(s, st1) && st1.look.kind == Keyword && st1.stack == [] && st1.level == 0 && st1.out == [] && st1.lists == 0
    requires !IsCloser(st1.look.value) && st1.look.value != "<ul>"
    requires IsCloser(c) && c != "</body>" && Drop(st1.look.value, 1) == Drop(c, 2)
    requires NextToken(s, st1.pos) == Ok(Scan(Token(Str, x), p2))
    requires p2 < |s| && NextToken(s, p2) == Ok(Scan(Token(Keyword, c), p3))
    requires p3 < |s| && NextToken(s, p3) == Ok(Scan(Token(Keyword, "</body>"), p4))
    ensures Loop(s, st1.(stack := st1.stack + ["<body>"], out := st1.out + ["<body>"])) == Ok(st5)
    ensures st5.look.value == "</body>" && st5.stack == ["<body>"]
    ensures st5.out == ["<body>", st1.look.value, "  " + x, c]
  {
    var o := st1.look.value;
    var st4 := OpenerAndText(s, st1, x, c, p2, p3);
    st5 := NestedCloses(s, st4, p4);
    NestedLines(o, x, c);
  }

  lemma NestedCloses(s: string, st4: State, p4: nat) returns (st5: State)
    requires Valid(s, st4) && st4.look.kind == Keyword && IsCloser(st4.look.value) && st4.look.value != "</body>"
    requires |st4.stack| == 2 && Drop(st4.stack[1], 1) == Drop(st4.look.value, 2) && st4.level == 1
    requires NextToken(s, st4.pos) == Ok(Scan(Token(Keyword, "</body>"), p4))
    ensures Loop(s, st4) == Ok(st5)
    ensures st5.look.value == "</body>" && st5.stack == st4.stack[..1]
    ensures st5.out == st4.out + [st4.look.value]
  {
    CloserStep(s, st4, Token(Keyword, "</body>"), p4);
    st5 := st4.(look := Token(Keyword, "</body>"), pos := p4, level := st4.level - 1,
                out := st4.out + [Indent(st4.level - 1) + st4.look.value],
                stack := st4.stack[..|st4.stack| - 1]);
    LoopStep(s, st4, st5);
    assert Loop(s, st5) == Ok(st5);
    assert Indent(0) + st4.look.value == st4.look.value;
  }

  lemma NestedLines(o: string, x: string, c: string)
    ensures [] + ["<body>"] + [Indent(0) + o] + [Indent(0 + 1) + x] + [c] == ["<body>", o, "  " + x, c]
  {
    assert Indent(0) + o == o;
    assert Indent(1) == "  ";
  }

  lemma RunNested(input: string, o: string, x: string, c: string, p0: nat, p1: nat, p2: nat, p3: nat, p4: nat)
    requires !IsCloser(o) && o != "<ul>" && IsCloser(c) && c != "</body>" && Drop(o, 1) == Drop(c, 2)
    requires NextToken(Pad(input), 0) == Ok(Scan(Token(Keyword, "<body>"), p0))
    requires p0 < |Pad(input)| && NextToken(Pad(input), p0) == Ok(Scan(Token(Keyword, o), p1))
    requires p1 < |Pad(input)| && NextToken(Pad(input), p1) == Ok(Scan(Token(Str, x), p2))
    requires p2 < |Pad(input)| && NextToken(Pad(input), p2) == Ok(Scan(Token(Keyword, c), p3))
    requires p3 < |Pad(input)| && NextToken(Pad(input), p3) == Ok(Scan(Token(Keyword, "</body>"), p4))
    ensures Run(input).Ok?
    ensures Run(input).value.out == ["<body>", o, "  " + x, c, "</body>"]
  {
    var st := State(Token(Keyword, "<body>"), p0, [], 0, [], 0);
    assert Init(input) == Ok(st);
    NestedInsideBody(Pad(input), st, o, x, c, p1, p2, p3, p4);
  }

  lemma RunMismatch(input: string, o: string, x: string, c: string, p0: nat, p1: nat, p2: nat, p3: nat)
    requires !IsCloser(o) && o != "<ul>" && IsCloser(c) && c != "</body>" && Drop(o, 1) != Drop(c, 2)
    requires NextToken(Pad(input), 0) == Ok(Scan(Token(Keyword, "<body>"), p0))
    requires p0 < |Pad(input)| && NextToken(Pad(input), p0) == Ok(Scan(Token(Keyword, o), p1))
    requires p1 < |Pad(input)| && NextToken(Pad(input), p1) == Ok(Scan(Token(Str, x), p2))
    requires p2 < |Pad(input)| && NextToken(Pad(input), p2) == Ok(Scan(Token(Keyword, c), p3))
    ensures Run(input) == Err(Halt(MismatchedClose(o, c), ["<body>", o, "  " + x, "  " + MismatchMessage(o, c)]))
  {
    var st := State(Token(Keyword, "<body>"), p0, [], 0, [], 0);
    assert Init(input) == Ok(st);
    MismatchInsideBody(Pad(input), st, o, x, c, p1, p2, p3);
  }

  /** `<body><ul></body>` t2 `</body>`: the list item's text statement takes
      the first `</body>` as a closer and pops `<body>`, `t2` is discarded
      after the list, and the second `</body>` finds no `<body>` left to remove. */
  lemma ListClosesBody(s: string, st: State, p1: nat, p2: nat, t2: Token, p3: nat, p4: nat)
    requires Valid(s, st) && st == State(Token(Keyword, "<body>"), st.pos, [], 0, [], 0)
    requires NextToken(s, st.pos) == Ok(Scan(Token(Keyword, "<ul>"), p1))
    requires p1 < |s| && NextToken(s, p1) == Ok(Scan(Token(Keyword, "</body>"), p2))
    requires p2 < |s| && NextToken(s, p2) == Ok(Scan(t2, p3))
    requires p3 < |s| && NextToken(s, p3) == Ok(Scan(Token(Keyword, "</body>"), p4))
    ensures Webpage(s, st) == Err(Halt(BodyNotOpen, ["<body>", "<ul>", "</body>", "</ul>", "</body>"]))
  {
    var st1 := st.(look := Token(Keyword, "<ul>"), pos := p1);
    MatchStep(s, st, Token(Keyword, "<ul>"), p1);
    var st3 := ListClosesBodyAfterMatch(s, st1, p2, t2, p3, p4);
    NoBodyLeft(st3);
    WebpageStopsAtClose(s, st, st1, st3, Halt(BodyNotOpen, ["<body>", "<ul>", "</body>", "</ul>", "</body>"]));
  }

  lemma ListClosesBodyAfterMatch(s: string, st1: State, p2: nat, t2: Token, p3: nat, p4: nat) returns (st3: State)
    requires Valid(s, st1) && st1.look == Token(Keyword, "<ul>")
    requires st1.stack == [] && st1.level == 0 && st1.out == [] && st1.lists == 0
    requires NextToken(s, st1.pos) == Ok(Scan(Token(Keyword, "</body>"), p2))
    requires p2 < |s| && NextToken(s, p2) == Ok(Scan(t2, p3))
    requires p3 < |s| && NextToken(s, p3) == Ok(Scan(Token(Keyword, "</body>"), p4))
    ensures Loop(s, st1.(stack := st1.stack + ["<body>"], out := st1.out + ["<body>"])) == Ok(st3)
    ensures st3.look.value == "</body>" && st3.stack == []
    ensures st3.out == ["<body>", "<ul>", "</body>", "</ul>"]
  {
    var st2 := st1.(stack := ["<body>"], out := ["<body>"]);
    assert st2 == st1.(stack := st1.stack + ["<body>"], out := st1.out + ["<body>"]);
    var item := ListItemClosesBody(s, st2, p2, t2, p3);
    UlStep(s, st2, item, Token(Keyword, "</body>"), p4);
    st3 := item.(look := Token(Keyword, "</body>"), pos := p4, level := item.level + 1, lists := item.lists + 1);
    assert TextStmt(s, st2) == Ok(st3);
    LoopStep(s, st2, st3);
    assert Loop(s, st3) == Ok(st3);
  }

  /** `</body>` with `<body>` no longer open: printed, then a ValueError. */
  lemma NoBodyLeft(st: State)
    requires st.look.value == "</body>" && st.stack == [] && st.out == ["<body>", "<ul>", "</body>", "</ul>"]
    ensures CloseBody(st) == Err(Halt(BodyNotOpen, ["<body>", "<ul>", "</body>", "</ul>", "</body>"]))
  {
    assert st.out + ["</body>"] == ["<body>", "<ul>", "</body>", "</ul>", "</body>"];
  }

  /** The list item whose text statement is `</body>` while only `<body>` is
      open: the closer is printed at level 0 and the stack is emptied. */
  lemma ListItemClosesBody(s: string, st2: State, p2: nat, t2: Token, p3: nat) returns (item: State)
    requires Valid(s, st2) && st2.look == Token(Keyword, "<ul>")
    requires st2.stack == ["<body>"] && st2.level == 0 && st2.out == ["<body>"] && st2.lists == 0
    requires NextToken(s, st2.pos) == Ok(Scan(Token(Keyword, "</body>"), p2))
    requires p2 < |s| && NextToken(s, p2) == Ok(Scan(t2, p3))
    ensures ListItemStmt(s, st2) == Ok(item)
    ensures item.pos == p3 && item.stack == [] && item.level == -1 && item.lists == 0
    ensures item.out == ["<body>", "<ul>", "</body>", "</ul>"]
  {
    var sa := st2.(look := Token(Keyword, "</body>"), pos := p2, out := st2.out + [Indent(st2.level) + "<ul>"]);
    assert NextLookahead(s, st2.(out := st2.out + [Indent(st2.level) + "<ul>"])) == Ok(sa);
    var sa1 := sa.(level := sa.level + 1);
    var sb := BodyCloserInList(s, sa1, t2, p3);
    ListItemSteps(s, st2, sa, sb);
    item := sb.(out := sb.out + ["</ul>"], level := sb.level - 1);
    ClosedBodyLines();
  }

  /** `</body>` as a text statement while `<body>` alone is open: it names the
      stack top, so it is printed one level lower and empties the stack. */
  lemma BodyCloserInList(s: string, sa: State, t2: Token, p3: nat) returns (sb: State)
    requires Valid(s, sa) && sa.look == Token(Keyword, "</body>") && sa.stack == ["<body>"]
    requires NextToken(s, sa.pos) == Ok(Scan(t2, p3))
    ensures TextStmt(s, sa) == Ok(sb)
    ensures sb == sa.(look := t2, pos := p3, level := sa.level - 1,
                      out := sa.out + [Indent(sa.level - 1) + "</body>"], stack := [])
  {
    assert Drop("<body>", 1) == "body>" && Drop("</body>", 2) == "body>";
    CloserStep(s, sa, t2, p3);
    assert sa.stack[..0] == [];
    sb := sa.(look := t2, pos := p3, level := sa.level - 1,
              out := sa.out + [Indent(sa.level - 1) + "</body>"], stack := []);
  }

  lemma ClosedBodyLines()
    ensures ["<body>"] + [Indent(0) + "<ul>"] + [Indent(0 + 1 - 1) + "</body>"] + ["</ul>"]
            == ["<body>", "<ul>", "</body>", "</ul>"]
  {
    assert Indent(0) + "<ul>" == "<ul>";
    assert Indent(0) + "</body>" == "</body>";
  }
}

=== FILE: lexer.dfy ===
/** The lexer (parser.py:46-101) as pure functions over the input string and a
    cursor. The cursor `pos` is the index of the current character `ch`; the
    source keeps `index == pos + 1` and has always already read `s[pos]`. */
module Lexer {
  import opened Results
  import opened Tokens

  /** Reading `s[index]` past the end raises an IndexError (parser.py:70). */
  datatype LexError = IndexOverrun

  /** A token and the cursor position left behind it. */
  datatype Scan = Scan(token: Token, next: nat)

  /** `nextChar`: move to the next character; reading past the end of the
      input is an IndexError. */
  function Advance(s: string, pos: nat): (r: Result<nat, LexError>)
    ensures r.Ok? <==> pos + 1 < |s|
    ensures r.Ok? ==> r.value == pos + 1
    ensures r.Err? ==> r.error == IndexOverrun
  {
    if pos + 1 < |s| then Ok(pos + 1) else Err(IndexOverrun)
  }

  predicate AllSpaces(s: string, i: nat, j: nat)
    requires i <= j <= |s|
  {
    forall k :: i <= k < j ==> s[k] == ' '
  }

  predicate AllIn(s: string, i: nat, j: nat, cs: CharSet)
    requires i <= j <= |s|
  {
    forall k :: i <= k < j ==> InSet(s[k], cs)
  }

  /** The `checkChar(' ')` loop at the head of `nextToken`: the cursor stops on
      the first non-space character, or the input runs out. */
  function SkipSpaces(s: string, pos: nat): (r: Result<nat, LexError>)
    requires pos < |s|
    ensures r.Ok? ==> pos <= r.value < |s| && AllSpaces(s, pos, r.value) && s[r.value] != ' '
    ensures r.Err? ==> AllSpaces(s, pos, |s|)
    decreases |s| - pos
  {
    if s[pos] != ' ' then Ok(pos)
    else
      var p :- Advance(s, pos);
      SkipSpaces(s, p)
  }

  /** The `while(self.ch in charSet)` loop of `consumeChars`: the cursor stops
      on the first character outside the set. */
  function ConsumeWhile(s: string, pos: nat, cs: CharSet): (r: Result<nat, LexError>)
    requires pos < |s|
    ensures r.Ok? ==> pos <= r.value < |s| && AllIn(s, pos, r.value, cs) && !InSet(s[r.value], cs)
    ensures r.Err? ==> AllIn(s, pos, |s|, cs)
    decreases |s| - pos
  {
    if !InSet(s[pos], cs) then Ok(pos)
    else
      var p :- Advance(s, pos);
      ConsumeWhile(s, p, cs)
  }

  /** `consumeChars`: the current character is taken whatever it is, then the
      longest run of characters from the set; the run is `s[pos..r.value]`. */
  function ConsumeRun(s: string, pos: nat, cs: CharSet): (r: Result<nat, LexError>)
    requires pos < |s|
    ensures r.Ok? ==> pos < r.value < |s| && AllIn(s, pos + 1, r.value, cs) && !InSet(s[r.value], cs)
  {
    var p :- Advance(s, pos);
    ConsumeWhile(s, p, cs)
  }

  /** The reference description of the token that starts at the non-space
      index `q`, with `p` the cursor position after it. */
  ghost predicate TokenAt(s: string, q: nat, t: Token, p: nat)
    requires q < |s|
  {
    && p < |s|
    && if IsLetter(s[q]) || IsDigit(s[q]) then
         && q < p
         && t == Token(Str, s[q..p])
         && AllIn(s, q + 1, p, WordChars)
         && !InSet(s[p], WordChars)
       else if s[q] == '<' then
         TagAt(s, q, t, p)
       else if s[q] == '$' then
         p == q + 1 && t == Token(Eoi, "")
       else
         p == q && t == Token(Invalid, [s[q]])
  }

  /** The token read from a `<` at index `q`: `<>`; a bracketed keyword; a
      bracketed unknown name; or a name whose `>` is missing, in which case the
      character found instead of `>` is skipped. The name is `s[q+1..p-1]`;
      its first character is taken whatever it is. */
  ghost predicate TagAt(s: string, q: nat, t: Token, p: nat)
    requires q < |s| && p < |s|
  {
    && q + 2 <= p
    && if s[q + 1] == '>' then
         p == q + 2 && t == Token(Invalid, "<>")
       else
         && q + 3 <= p
         && AllIn(s, q + 2, p - 1, TagChars)
         && if s[p - 1] == '>' then
              t == (if s[q + 1..p - 1] in KEYWORDS then Token(Keyword, s[q..p]) else Token(Invalid, ""))
            else
              !InSet(s[p - 1], TagChars) && t == Token(Invalid, "")
  }

  /** `nextToken` after the spaces: everything but the space skipping. */
  ghost predicate Scanned(s: string, pos: nat, t: Token, p: nat)
    requires pos < |s|
  {
    exists q :: pos <= q < |s| && AllSpaces(s, pos, q) && s[q] != ' ' && TokenAt(s, q, t, p)
  }

  /** `checkValidKeyword`, entered with the cursor on the character after `<`. */
  function CheckValidKeyword(s: string, pos: nat): (r: Result<Scan, LexError>)
    requires 1 <= pos < |s| && s[pos - 1] == '<'
    ensures r.Ok? ==> pos - 1 < r.value.next < |s| && TagAt(s, pos - 1, r.value.token, r.value.next)
  {
    if s[pos] == '>' then
      var p :- Advance(s, pos);
      Ok(Scan(Token(Invalid, "<>"), p))
    else
      var e :- ConsumeRun(s, pos, TagChars);
      var id := "<" + s[pos..e];
      var p :- Advance(s, e);
      if s[e] != '>' then
        Ok(Scan(Token(Invalid, ""), p))
      else if id[1..] in KEYWORDS then
        assert id + ">" == s[pos - 1..p];
        Ok(Scan(Token(Keyword, id + ">"), p))
      else
        Ok(Scan(Token(Invalid, ""), p))
  }

  /** The classification part of `nextToken`, on a non-space character. */
  function Classify(s: string, q: nat): (r: Result<Scan, LexError>)
    requires q < |s| && s[q] != ' '
    ensures r.Ok? ==> TokenAt(s, q, r.value.token, r.value.next)
  {
    if IsLetter(s[q]) || IsDigit(s[q]) then
      var p :- ConsumeRun(s, q, WordChars);
      Ok(Scan(Token(Str, s[q..p]), p))
    else if s[q] == '<' then
      var p :- Advance(s, q);
      CheckValidKeyword(s, p)
    else if s[q] == '$' then
      var p :- Advance(s, q);
      Ok(Scan(Token(Eoi, ""), p))
    else
      Ok(Scan(Token(Invalid, [s[q]]), q))
  }

  /** `nextToken`: skip spaces, then read one token. The result is the token
      the reference description assigns to the input; the cursor never moves
      back and moves forward past every token except a bad character. */
  function NextToken(s: string, pos: nat): (r: Result<Scan, LexError>)
    requires pos < |s|
    ensures r.Ok? ==> Scanned(s, pos, r.value.token, r.value.next)
    ensures r.Ok? ==> pos <= r.value.next < |s| && WellFormed(r.value.token)
    ensures r.Ok? && r.value.token.kind != Invalid ==> pos < r.value.next
  {
    var q :- SkipSpaces(s, pos);
    var r := Classify(s, q);
    assert r.Ok? ==> TokenAt(s, q, r.value.token, r.value.next);
    r
  }

  /** Completeness of the lexer against its reference description: whatever
      `Scanned` allows is what `NextToken` returns, so the description has
      exactly one solution whenever the lexer succeeds. */
  lemma {:induction false} NextTokenComplete(s: string, pos: nat, t: Token, p: nat)
    requires pos < |s| && Scanned(s, pos, t, p)
    ensures NextToken(s, pos) == Ok(Scan(t, p))
  {
    var q :| pos <= q < |s| && AllSpaces(s, pos, q) && s[q] != ' ' && TokenAt(s, q, t, p);
    SkipSpacesComplete(s, pos, q);
    ClassifyComplete(s, q, t, p);
  }

  lemma {:induction false} SkipSpacesComplete(s: string, pos: nat, q: nat)
    requires pos <= q < |s| && AllSpaces(s, pos, q) && s[q] != ' '
    ensures SkipSpaces(s, pos) == Ok(q)
    decreases q - pos
  {
    if pos < q {
      SkipSpacesComplete(s, pos + 1, q);
    }
  }

  lemma {:induction false} ConsumeWhileComplete(s: string, pos: nat, e: nat, cs: CharSet)
    requires pos <= e < |s| && AllIn(s, pos, e, cs) && !InSet(s[e], cs)
    ensures ConsumeWhile(s, pos, cs) == Ok(e)
    decreases e - pos
  {
    if pos < e {
      ConsumeWhileComplete(s, pos + 1, e, cs);
    }
  }

  lemma ClassifyComplete(s: string, q: nat, t: Token, p: nat)
    requires q < |s| && s[q] != ' ' && TokenAt(s, q, t, p)
    ensures Classify(s, q) == Ok(Scan(t, p))
  {
    if IsLetter(s[q]) || IsDigit(s[q]) {
      ConsumeWhileComplete(s, q + 1, p, WordChars);
    } else if s[q] == '<' && s[q + 1] != '>' {
      assert !InSet('>', TagChars);
      ConsumeWhileComplete(s, q + 2, p - 1, TagChars);
      var id := "<" + s[q + 1..p - 1];
      assert id[1..] == s[q + 1..p - 1];
      assert s[p - 1] == '>' ==> id + ">" == s[q..p];
    }
  }

  /** The lexer is a function of its input: the reference description
      determines one token and one cursor position. */
  lemma ScannedIsDeterministic(s: string, pos: nat, t1: Token, p1: nat, t2: Token, p2: nat)
    requires pos < |s| && Scanned(s, pos, t1, p1) && Scanned(s, pos, t2, p2)
    ensures t1 == t2 && p1 == p2
  {
    NextTokenComplete(s, pos, t1, p1);
    NextTokenComplete(s, pos, t2, p2);
  }
}

=== FILE: lexer_props.dfy ===
/** The lexer's behaviour case by case, as consequences of its agreement with
    the reference description in `Lexer`. `q` is always the first non-space
    index at or after the cursor `pos`. */
module LexerProps {
  import opened Results
  import opened Tokens
  import opened Lexer

  predicate FirstNonSpace(s: string, pos: nat, q: nat)
  {
    pos <= q < |s| && AllSpaces(s, pos, q) && s[q] != ' '
  }

  /** Every keyword name is made of tag characters and does not start with `>`. */
  lemma KeywordNamesAreTagNames(k: string)
    requires k in KEYWORDS
    ensures |k| >= 1 && k[0] != '>' && forall i :: 0 <= i < |k| ==> InSet(k[i], TagChars)
  {
  }

  /** A text token is a non-empty, maximal run of ASCII letters and digits,
      taken verbatim from the input after the skipped spaces. */
  lemma TextTokenIsMaximalRun(s: string, pos: nat)
    requires pos < |s| && NextToken(s, pos).Ok? && NextToken(s, pos).value.token.kind == Str
    ensures var v := NextToken(s, pos).value.token.value;
            var p := NextToken(s, pos).value.next;
            && 1 <= |v| && pos + |v| <= p < |s|
            && s[p - |v|..p] == v
            && AllSpaces(s, pos, p - |v|)
            && (IsLetter(v[0]) || IsDigit(v[0]))
            && (forall i :: 0 <= i < |v| ==> InSet(v[i], WordChars))
            && !InSet(s[p], WordChars)
  {
    var sc := NextToken(s, pos).value;
    var q :| pos <= q < |s| && AllSpaces(s, pos, q) && s[q] != ' ' && TokenAt(s, q, sc.token, sc.next);
    assert sc.next - |sc.token.value| == q;
  }

  /** A run of letters and digits after the spaces is read as one text token. */
  lemma WordIsText(s: string, pos: nat, q: nat, e: nat)
    requires FirstNonSpace(s, pos, q) && (IsLetter(s[q]) || IsDigit(s[q]))
    requires q < e < |s| && AllIn(s, q + 1, e, WordChars) && !InSet(s[e], WordChars)
    ensures NextToken(s, pos) == Ok(Scan(Token(Str, s[q..e]), e))
  {
    NextTokenComplete(s, pos, Token(Str, s[q..e]), e);
  }

  /** A keyword token is always a name from KEYWORDS in angle brackets, and is
      exactly the text the lexer consumed after the spaces. */
  lemma KeywordTokenIsBracketedKeyword(s: string, pos: nat)
    requires pos < |s| && NextToken(s, pos).Ok? && NextToken(s, pos).value.token.kind == Keyword
    ensures var v := NextToken(s, pos).value.token.value;
            var p := NextToken(s, pos).value.next;
            && 3 <= |v| && pos + |v| <= p
            && v[1..|v| - 1] in KEYWORDS
            && v == "<" + v[1..|v| - 1] + ">"
            && s[p - |v|..p] == v
            && AllSpaces(s, pos, p - |v|)
  {
    var sc := NextToken(s, pos).value;
    var q :| pos <= q < |s| && AllSpaces(s, pos, q) && s[q] != ' ' && TokenAt(s, q, sc.token, sc.next);
    KeywordIsSlice(s, q, sc.token, sc.next);
    KeywordTextIsBracketed(sc.token.value);
  }

  lemma KeywordIsSlice(s: string, q: nat, t: Token, p: nat)
    requires q < |s| && TokenAt(s, q, t, p) && t.kind == Keyword
    ensures q + |t.value| == p <= |s| && t.value == s[q..p]
  {
    assert s[q] == '<' && TagAt(s, q, t, p);
  }

  lemma KeywordTextIsBracketed(v: string)
    requires IsKeywordText(v)
    ensures 3 <= |v| && v == "<" + v[1..|v| - 1] + ">"
  {
    var k := v[1..|v| - 1];
    KeywordNamesAreTagNames(k);
    assert v == [v[0]] + k + [v[|v| - 1]];
  }

  /** `<` + a keyword + `>` is read as that keyword. */
  lemma KeywordIsRecognised(s: string, pos: nat, q: nat, k: string)
    requires FirstNonSpace(s, pos, q) && k in KEYWORDS
    requires q + |k| + 2 < |s| && s[q..q + |k| + 2] == "<" + k + ">"
    ensures NextToken(s, pos) == Ok(Scan(Token(Keyword, "<" + k + ">"), q + |k| + 2))
  {
    KeywordNamesAreTagNames(k);
    var p := q + |k| + 2;
    var w := s[q..p];
    assert s[q] == w[0] == '<';
    assert s[q + 1] == w[1] == k[0];
    assert s[p - 1] == w[|k| + 1] == '>';
    assert forall i :: 0 <= i < |k| ==> s[q + 1 + i] == w[1 + i] == k[i];
    assert s[q + 1..p - 1] == k;
    assert forall i :: q + 2 <= i < p - 1 ==> s[i] == k[i - q - 1];
    assert TokenAt(s, q, Token(Keyword, "<" + k + ">"), p);
    NextTokenComplete(s, pos, Token(Keyword, "<" + k + ">"), p);
  }

  /** `<>` is INVALID with the value `<>`. */
  lemma EmptyTagIsInvalid(s: string, pos: nat, q: nat)
    requires FirstNonSpace(s, pos, q) && q + 2 < |s| && s[q] == '<' && s[q + 1] == '>'
    ensures NextToken(s, pos) == Ok(Scan(Token(Invalid, "<>"), q + 2))
  {
    NextTokenComplete(s, pos, Token(Invalid, "<>"), q + 2);
  }

  /** A bracketed name that is not a keyword is INVALID with an empty value. */
  lemma UnknownTagIsInvalid(s: string, pos: nat, q: nat, e: nat)
    requires FirstNonSpace(s, pos, q) && s[q] == '<' && q + 1 < e && e + 1 < |s|
    requires s[q + 1] != '>' && AllIn(s, q + 2, e, TagChars) && s[e] == '>'
    requires s[q + 1..e] !in KEYWORDS
    ensures NextToken(s, pos) == Ok(Scan(Token(Invalid, ""), e + 1))
  {
    NextTokenComplete(s, pos, Token(Invalid, ""), e + 1);
  }

  /** A tag whose name is not followed by `>` is INVALID with an empty value,
      and the character standing where `>` should be is skipped as well. */
  lemma UnterminatedTagIsInvalid(s: string, pos: nat, q: nat, e: nat)
    requires FirstNonSpace(s, pos, q) && s[q] == '<' && q + 1 < e && e + 1 < |s|
    requires s[q + 1] != '>' && AllIn(s, q + 2, e, TagChars) && !InSet(s[e], TagChars) && s[e] != '>'
    ensures NextToken(s, pos) == Ok(Scan(Token(Invalid, ""), e + 1))
  {
    NextTokenComplete(s, pos, Token(Invalid, ""), e + 1);
  }

  /** `$` is the end of input: an EOI token with an empty value. */
  lemma DollarIsEndOfInput(s: string, pos: nat, q: nat)
    requires FirstNonSpace(s, pos, q) && s[q] == '$' && q + 1 < |s|
    ensures NextToken(s, pos) == Ok(Scan(Token(Eoi, ""), q + 1))
  {
    NextTokenComplete(s, pos, Token(Eoi, ""), q + 1);
  }

  /** Any other character is INVALID carrying exactly that character, and the
      cursor stays on it. */
  lemma OtherCharIsInvalid(s: string, pos: nat, q: nat)
    requires FirstNonSpace(s, pos, q)
    requires !IsLetter(s[q]) && !IsDigit(s[q]) && s[q] != '<' && s[q] != '$'
    ensures NextToken(s, pos) == Ok(Scan(Token(Invalid, [s[q]]), q))
  {
    NextTokenComplete(s, pos, Token(Invalid, [s[q]]), q);
  }

  /** Conversely, an INVALID token holding one character leaves the cursor on
      that character. */
  lemma SingleCharInvalidDoesNotAdvance(s: string, pos: nat)
    requires pos < |s| && NextToken(s, pos).Ok?
    requires NextToken(s, pos).value.token.kind == Invalid && |NextToken(s, pos).value.token.value| == 1
    ensures var sc := NextToken(s, pos).value;
            AllSpaces(s, pos, sc.next) && s[sc.next] == sc.token.value[0]
  {
    var sc := NextToken(s, pos).value;
    var q :| pos <= q < |s| && AllSpaces(s, pos, q) && s[q] != ' ' && TokenAt(s, q, sc.token, sc.next);
  }

  /** Only spaces before the end of the string: the lexer reads past the end. */
  lemma TrailingSpacesOverrun(s: string, pos: nat)
    requires pos < |s| && AllSpaces(s, pos, |s|)
    ensures NextToken(s, pos) == Err(IndexOverrun)
  {
    var r := SkipSpaces(s, pos);
    if r.Err? {
      match r.error
      case IndexOverrun =>
    }
  }
}

=== FILE: parser.dfy ===
/** The recursive-descent parser (parser.py:103-189): the rules `webpage`,
    `textStmt`, `keywordStmt` and `listItemStmt` as mutually recursive
    functions threading one parser state, with every `sys.exit` and every
    exception the code raises itself turned into an error value. */
module Parser {
  import opened Results
  import opened Tokens
  import opened Lexer

  /** Why a parse stopped. */
  datatype Reason =
    | Overrun                                      // the lexer read past the end (IndexError, parser.py:70)
    | MatchFailed(expected: Kind)                  // `match` calls the undefined `self.error` (AttributeError, parser.py:188)
    | ExpectedBody(found: string)                  // first keyword is not `<body>` (sys.exit, parser.py:117-119)
    | InvalidToken                                 // INVALID lookahead in `textStmt` (sys.exit, parser.py:139-141)
    | MismatchedClose(open: string, found: string) // closer does not match the stack top (sys.exit, parser.py:154-156)
    | EmptyStack                                   // `keywordsSeen[-1]` on an empty stack (IndexError, parser.py:154)
    | BodyNotOpen                                  // `keywordsSeen.remove("<body>")` finds none (ValueError, parser.py:129)

  /** A stopped parse: the reason and every line printed up to that point,
      including the diagnostic printed just before `sys.exit`. */
  datatype Halt = Halt(reason: Reason, out: seq<string>)

  /** The parser's fields: the lookahead `token`, the lexer cursor, the open-tag
      stack `keywordsSeen` (innermost last), the indentation `iLvl` and the
      lines printed so far. `lists` counts the `<ul>` statements completed; it
      drives nothing and is kept only to state the indentation invariant. */
  datatype State = State(look: Token, pos: nat, stack: seq<string>, level: int, out: seq<string>, lists: nat)

  /** The input as the constructor hands it to the lexer: with the `$` end
      marker and one trailing space. */
  function Pad(input: string): (r: string)
    ensures |r| == |input| + 2 && r[..|input|] == input
    ensures r[|input|] == '$' && r[|input| + 1] == ' '
  {
    input + "$ "
  }

  /** `'  ' * n` in Python: two spaces per level, nothing for n <= 0. */
  function Indent(n: int): (r: string)
    ensures |r| == if n <= 0 then 0 else 2 * n
    ensures forall i :: 0 <= i < |r| ==> r[i] == ' '
    decreases n
  {
    if n <= 0 then "" else "  " + Indent(n - 1)
  }

  /** Python's `x[n:]` for n >= 0: the suffix of `x` that leaves out its
      first `n` characters, empty when n is past the end. */
  function Drop(x: string, n: nat): (r: string)
    ensures |r| == (if n <= |x| then |x| - n else 0)
    ensures r == x[|x| - |r|..]
  {
    if n <= |x| then x[n..] else ""
  }

  /** The total length of the strings in `xs`. */
  function Width(xs: seq<string>): nat
  {
    if |xs| == 0 then 0 else |xs[0]| + Width(xs[1..])
  }

  /** `sep.join(xs)`: the strings in order with `sep` between neighbours, so
      it starts with the first, ends with the last, and is as long as all of
      them plus one separator per gap. */
  function Join(xs: seq<string>, sep: string): (r: string)
    ensures |xs| == 0 ==> r == ""
    ensures |xs| >= 1 ==> xs[0] <= r
    ensures |xs| >= 1 ==> |xs[|xs| - 1]| <= |r| && r[|r| - |xs[|xs| - 1]|..] == xs[|xs| - 1]
    ensures |r| == Width(xs) + (if |xs| == 0 then 0 else (|xs| - 1) * |sep|)
  {
    if |xs| == 0 then ""
    else if |xs| == 1 then xs[0]
    else xs[0] + sep + Join(xs[1..], sep)
  }

  /** `list.remove(x)`: delete the first occurrence of `x`, keeping every
      other element in order. */
  function RemoveFirst(xs: seq<string>, x: string): (r: seq<string>)
    requires x in xs
    ensures exists i :: 0 <= i < |xs| && xs[i] == x && x !in xs[..i] && r == xs[..i] + xs[i + 1..]
  {
    var i := IndexOf(xs, x);
    xs[..i] + xs[i + 1..]
  }

  /** `list.index(x)`: the position of the first occurrence of `x`. */
  function IndexOf(xs: seq<string>, x: string): (i: nat)
    requires x in xs
    ensures i < |xs| && xs[i] == x && x !in xs[..i]
  {
    if xs[0] == x then 0
    else
      var j := IndexOf(xs[1..], x);
      assert xs[..j + 1] == [xs[0]] + xs[1..][..j];
      j + 1
  }

  const UnclosedHead := "ERROR: Expected closing's for tags ["
  const UnclosedTail := "] were not found!"

  /** The message printed once per tag still open after the main loop: every
      open tag, bottom first, comma-separated inside the brackets. */
  function UnclosedMessage(stack: seq<string>): (r: string)
    ensures UnclosedHead <= r
    ensures |UnclosedHead| + |UnclosedTail| <= |r| && r[|r| - |UnclosedTail|..] == UnclosedTail
    ensures |r| == |UnclosedHead| + Width(stack) + (if |stack| == 0 then 0 else |stack| - 1) + |UnclosedTail|
    ensures |stack| >= 1 ==> UnclosedHead + stack[0] <= r
    ensures r[|UnclosedHead|..|r| - |UnclosedTail|] == Join(stack, ",")
  {
    var j := Join(stack, ",");
    assert |stack| >= 1 ==> UnclosedHead + stack[0] == (UnclosedHead + j)[..|UnclosedHead| + |stack[0]|];
    UnclosedHead + j + UnclosedTail
  }

  const MismatchHead := "ERROR: Expecting closing bracket for keyword: "
  const MismatchMid := " ... Found: "

  /** The message printed before exiting on a closer that does not match:
      the open tag expected, then the closer found, which ends the line. */
  function MismatchMessage(top: string, found: string): (r: string)
    ensures |r| == |MismatchHead| + |top| + |MismatchMid| + |found|
    ensures r[..|MismatchHead|] == MismatchHead
    ensures r[|MismatchHead|..|MismatchHead| + |top|] == top
    ensures r[|MismatchHead| + |top|..|r| - |found|] == MismatchMid
    ensures r[|r| - |found|..] == found
  {
    MismatchHead + top + MismatchMid + found
  }

  function Repeat(line: string, n: nat): (r: seq<string>)
    ensures |r| == n && forall i :: 0 <= i < n ==> r[i] == line
  {
    if n == 0 then [] else [line] + Repeat(line, n - 1)
  }

  /** The state shape every rule keeps: the cursor is on the input and the
      lookahead is a token the lexer can produce. */
  predicate Valid(s: string, st: State)
  {
    st.pos < |s| && WellFormed(st.look)
  }

  /** The termination measure. The cursor counts twice, and an INVALID
      lookahead one less than any other: the lexer advances past every token but
      a bad character, so reading a token never raises the measure and lowers it
      whenever the previous lookahead was not INVALID. */
  function Rank(s: string, st: State): nat
    requires st.pos < |s|
  {
    2 * (|s| - st.pos) + (if st.look.kind == Invalid then 0 else 1)
  }

  /** `level - |stack| - lists`: the quantity every statement keeps. */
  function Depth(st: State): int
  {
    st.level - |st.stack| - st.lists
  }

  /** `self.token = self.lex.nextToken()`: only the lookahead and the cursor change. */
  function NextLookahead(s: string, st: State): (r: Result<State, Halt>)
    requires Valid(s, st)
    ensures r.Ok? ==> Valid(s, r.value) && r.value == st.(look := r.value.look, pos := r.value.pos)
    ensures r.Ok? ==> Rank(s, r.value) <= Rank(s, st)
    ensures r.Ok? && st.look.kind != Invalid ==> Rank(s, r.value) < Rank(s, st)
    ensures r.Ok? ==> Scanned(s, st.pos, r.value.look, r.value.pos)
    ensures r.Err? ==> r.error == Halt(Overrun, st.out)
  {
    match NextToken(s, st.pos)
    case Ok(sc) => Ok(st.(look := sc.token, pos := sc.next))
    case Err(_) => Err(Halt(Overrun, st.out))
  }

  /** The output of a finished or stopped parse. */
  function OutputOf(r: Result<State, Halt>): seq<string>
  {
    if r.Ok? then r.value.out else r.error.out
  }

  /** Lines are only ever appended: what was printed stays printed. */
  predicate Extends(before: seq<string>, after: seq<string>)
  {
    before <= after
  }

  /** `textStmt`: INVALID is fatal, a keyword is a keyword statement, text is
      printed at the current indentation, and end of input does nothing. */
  function TextStmt(s: string, st: State): (r: Result<State, Halt>)
    requires Valid(s, st)
    ensures r.Ok? ==> Valid(s, r.value) && Rank(s, r.value) <= Rank(s, st)
    ensures r.Ok? && st.look.kind != Eoi ==> Rank(s, r.value) < Rank(s, st)
    ensures r.Ok? ==> Depth(r.value) == Depth(st) && r.value.lists >= st.lists
    ensures Extends(st.out, OutputOf(r))
    ensures st.look.kind == Invalid ==> r == Err(Halt(InvalidToken, st.out + ["ERROR INVALID TOKEN"]))
    ensures st.look.kind == Eoi ==> r == Ok(st)
    ensures st.look.kind == Keyword ==> r == KeywordStmt(s, st)
    ensures st.look.kind == Str && r.Ok? ==>
              r.value.out == st.out + [Indent(st.level) + st.look.value] && r.value.stack == st.stack && r.value.level == st.level
    decreases Rank(s, st), 3
  {
    match st.look.kind
    case Invalid => Err(Halt(InvalidToken, st.out + ["ERROR INVALID TOKEN"]))
    case Keyword => KeywordStmt(s, st)
    case Str => NextLookahead(s, st.(out := st.out + [Indent(st.level) + st.look.value]))
    case Eoi => Ok(st)
  }

  /** `keywordStmt`: a closer closes the innermost open tag, `<ul>` is a list
      statement, and any other keyword opens a tag. In every case the next
      token is read. */
  function KeywordStmt(s: string, st: State): (r: Result<State, Halt>)
    requires Valid(s, st) && st.look.kind == Keyword
    ensures r.Ok? ==> Valid(s, r.value) && Rank(s, r.value) < Rank(s, st)
    ensures r.Ok? ==> Depth(r.value) == Depth(st) && r.value.lists >= st.lists
    ensures Extends(st.out, OutputOf(r))
    ensures IsCloser(st.look.value) ==> r == CloseTag(s, st)
    ensures st.look.value == "<ul>" ==> r == ListStmt(s, st)
    ensures !IsCloser(st.look.value) && st.look.value != "<ul>" ==> r == OpenTag(s, st)
    decreases Rank(s, st), 2
  {
    var val := st.look.value;
    if val[1] == '/' then CloseTag(s, st)
    else if val == "<ul>" then ListStmt(s, st)
    else OpenTag(s, st)
  }

  /** The `<ul>` branch of `keywordStmt`: the list item, then one level
      deeper and the next token read, with the token the item left as
      lookahead discarded unexamined. */
  function ListStmt(s: string, st: State): (r: Result<State, Halt>)
    requires Valid(s, st) && st.look == Token(Keyword, "<ul>")
    ensures r.Ok? ==> Valid(s, r.value) && Rank(s, r.value) < Rank(s, st)
    ensures r.Ok? ==> Depth(r.value) == Depth(st) && r.value.lists > st.lists
    ensures Extends(st.out, OutputOf(r))
    ensures ListItemStmt(s, st).Err? ==> r == ListItemStmt(s, st)
    ensures r.Ok? ==>
              && ListItemStmt(s, st).Ok?
              && var item := ListItemStmt(s, st).value;
                 && r.value.stack == item.stack && r.value.out == item.out
                 && r.value.level == item.level + 1 && r.value.lists == item.lists + 1
                 && Scanned(s, item.pos, r.value.look, r.value.pos)
    decreases Rank(s, st), 1
  {
    match ListItemStmt(s, st)
    case Err(h) => Err(h)
    case Ok(st1) => NextLookahead(s, st1.(level := st1.level + 1, lists := st1.lists + 1))
  }

  /** The closing branch of `keywordStmt`. The closer must name the stack
      top: then the level drops, the closer is printed at the lowered level and
      the top is popped. An empty stack is an IndexError; a different top is
      reported and ends the parse. */
  function CloseTag(s: string, st: State): (r: Result<State, Halt>)
    requires Valid(s, st) && st.look.kind == Keyword && IsCloser(st.look.value)
    ensures r.Ok? ==> Valid(s, r.value) && Rank(s, r.value) < Rank(s, st)
    ensures r.Ok? ==> Depth(r.value) == Depth(st)
    ensures Extends(st.out, OutputOf(r))
    ensures |st.stack| == 0 ==> r == Err(Halt(EmptyStack, st.out))
    ensures |st.stack| > 0 && Drop(st.stack[|st.stack| - 1], 1) != Drop(st.look.value, 2) ==>
              r == Err(Halt(MismatchedClose(st.stack[|st.stack| - 1], st.look.value),
                            st.out + [Indent(st.level) + MismatchMessage(st.stack[|st.stack| - 1], st.look.value)]))
    ensures r.Ok? ==>
              && |st.stack| > 0
              && Drop(st.stack[|st.stack| - 1], 1) == Drop(st.look.value, 2)
              && r.value.stack == st.stack[..|st.stack| - 1]
              && r.value.level == st.level - 1
              && r.value.out == st.out + [Indent(st.level - 1) + st.look.value]
              && r.value.lists == st.lists
  {
    var val := st.look.value;
    if |st.stack| == 0 then Err(Halt(EmptyStack, st.out))
    else
      var top := st.stack[|st.stack| - 1];
      if Drop(top, 1) != Drop(val, 2) then
        Err(Halt(MismatchedClose(top, val), st.out + [Indent(st.level) + MismatchMessage(top, val)]))
      else
        NextLookahead(s, st.(level := st.level - 1,
                             out := st.out + [Indent(st.level - 1) + val],
                             stack := st.stack[..|st.stack| - 1]))
  }

  /** The opening branch of `keywordStmt` for keywords other than `<ul>`:
      printed at the current level, pushed, and one level deeper. */
  function OpenTag(s: string, st: State): (r: Result<State, Halt>)
    requires Valid(s, st) && st.look.kind == Keyword
    ensures r.Ok? ==> Valid(s, r.value) && Rank(s, r.value) < Rank(s, st)
    ensures r.Ok? ==> Depth(r.value) == Depth(st)
    ensures Extends(st.out, OutputOf(r))
    ensures r.Ok? ==>
              && r.value.stack == st.stack + [st.look.value]
              && r.value.level == st.level + 1
              && r.value.out == st.out + [Indent(st.level) + st.look.value]
              && r.value.lists == st.lists
  {
    NextLookahead(s, st.(out := st.out + [Indent(st.level) + st.look.value],
                         stack := st.stack + [st.look.value],
                         level := st.level + 1))
  }

  /** `listItemStmt`: print `<ul>`, read the next token, parse exactly one text
      statement one level deeper, print `</ul>` without indentation, and come
      back up one level. */
  function ListItemStmt(s: string, st: State): (r: Result<State, Halt>)
    requires Valid(s, st) && st.look == Token(Keyword, "<ul>")
    ensures r.Ok? ==> Valid(s, r.value) && Rank(s, r.value) < Rank(s, st)
    ensures r.Ok? ==> Depth(r.value) == Depth(st) && r.value.lists >= st.lists
    ensures Extends(st.out, OutputOf(r))
    ensures |OutputOf(r)| > |st.out| && OutputOf(r)[|st.out|] == Indent(st.level) + "<ul>"
    ensures r.Ok? ==> |r.value.out| >= |st.out| + 2 && r.value.out[|r.value.out| - 1] == "</ul>"
    decreases Rank(s, st), 0
  {
    match NextLookahead(s, st.(out := st.out + [Indent(st.level) + "<ul>"]))
    case Err(h) => Err(h)
    case Ok(st1) =>
      match TextStmt(s, st1.(level := st1.level + 1))
      case Err(h) => Err(h)
      case Ok(st2) => Ok(st2.(out := st2.out + ["</ul>"], level := st2.level - 1))
  }

  /** The main loop's invariant: `iLvl == |keywordsSeen| - 1 + (number of <ul>
      statements done)`, and until some `<ul>` has run, `<body>` is still at
      the bottom of the stack. */
  predicate LoopInvariant(st: State)
  {
    && st.level == |st.stack| - 1 + st.lists
    && (st.lists == 0 ==> |st.stack| >= 1 && st.stack[0] == "<body>")
  }

  /** The only closer whose name matches `<body>` is `</body>`. */
  lemma OnlyBodyCloserMatchesBody(v: string)
    requires IsKeywordText(v) && IsCloser(v) && Drop(v, 2) == Drop("<body>", 1)
    ensures v == "</body>"
  {
    assert v == v[..2] + v[2..];
    assert v[..2] == "</";
  }

  /** One pass of the main loop keeps the invariant: the loop only runs a text
      statement when the lookahead is neither `</body>` nor the end of input. */
  lemma LoopStepKeepsInvariant(s: string, st: State)
    requires Valid(s, st) && st.look.value != "</body>" && st.look.kind != Eoi
    requires TextStmt(s, st).Ok?
    ensures LoopInvariant(st) ==> LoopInvariant(TextStmt(s, st).value)
  {
    var r := TextStmt(s, st).value;
    if LoopInvariant(st) && st.look.kind == Keyword {
      var v := st.look.value;
      if IsCloser(v) {
        assert r.lists == st.lists;
        if st.lists == 0 && |st.stack| == 1 {
          if Drop(st.stack[0], 1) == Drop(v, 2) {
            OnlyBodyCloserMatchesBody(v);
            assert false;
          }
        }
      } else if v != "<ul>" {
        assert r.stack == st.stack + [v];
      }
    }
  }

  /** The main loop of `webpage`: text statements until the lookahead is
      `</body>` or the end of input. It keeps the invariant above, so the
      level it ends at is never negative. */
  function Loop(s: string, st: State): (r: Result<State, Halt>)
    requires Valid(s, st)
    ensures r.Ok? ==> Valid(s, r.value) && (r.value.look.value == "</body>" || r.value.look.kind == Eoi)
    ensures r.Ok? ==> Depth(r.value) == Depth(st) && r.value.lists >= st.lists
    ensures r.Ok? && LoopInvariant(st) ==> LoopInvariant(r.value) && r.value.level >= 0
    ensures Extends(st.out, OutputOf(r))
    ensures st.look.value == "</body>" || st.look.kind == Eoi ==> r == Ok(st)
    decreases Rank(s, st)
  {
    if st.look.value == "</body>" || st.look.kind == Eoi then Ok(st)
    else
      var st1 :- TextStmt(s, st);
      LoopStepKeepsInvariant(s, st);
      Loop(s, st1)
  }

  /** `match`: the lookahead must have the expected kind; it is consumed. */
  function Match(s: string, st: State, kind: Kind): (r: Result<State, Halt>)
    requires Valid(s, st)
    ensures r.Ok? <==> st.look.kind == kind && NextToken(s, st.pos).Ok?
    ensures st.look.kind != kind ==> r == Err(Halt(MatchFailed(kind), st.out))
    ensures st.look.kind == kind && NextToken(s, st.pos).Err? ==> r == Err(Halt(Overrun, st.out))
    ensures r.Ok? ==> r.value == st.(look := NextToken(s, st.pos).value.token, pos := NextToken(s, st.pos).value.next)
  {
    if st.look.kind == kind then NextLookahead(s, st)
    else Err(Halt(MatchFailed(kind), st.out))
  }

  /** After the main loop: on `</body>` print it and remove the first
      `<body>` from the stack, leaving the order of the other tags and every
      other part of the state as it was. */
  function CloseBody(st: State): (r: Result<State, Halt>)
    ensures st.look.value != "</body>" ==> r == Ok(st)
    ensures st.look.value == "</body>" && "<body>" !in st.stack ==> r == Err(Halt(BodyNotOpen, st.out + ["</body>"]))
    ensures st.look.value == "</body>" && r.Ok? ==>
              && "<body>" in st.stack
              && r.value.out == st.out + ["</body>"]
              && |r.value.stack| == |st.stack| - 1
              && multiset(r.value.stack) == multiset(st.stack) - multiset{"<body>"}
    ensures st.look.value == "</body>" && "<body>" in st.stack ==>
              r == Ok(st.(out := st.out + ["</body>"], stack := RemoveFirst(st.stack, "<body>")))
  {
    if st.look.value != "</body>" then Ok(st)
    else if "<body>" in st.stack then
      var rest := RemoveFirst(st.stack, "<body>");
      assert multiset(rest) == multiset(st.stack) - multiset{"<body>"} by {
        var i := IndexOf(st.stack, "<body>");
        assert st.stack == st.stack[..i] + [st.stack[i]] + st.stack[i + 1..];
      }
      Ok(st.(out := st.out + ["</body>"], stack := rest))
    else Err(Halt(BodyNotOpen, st.out + ["</body>"]))
  }

  /** `webpage`: the first token must be the keyword `<body>`; it is printed
      and pushed; the main loop runs; a final `</body>` closes the body; and
      one report line is printed per tag still open. */
  function Webpage(s: string, st: State): (r: Result<State, Halt>)
    requires Valid(s, st)
    ensures r.Ok? ==> st.look == Token(Keyword, "<body>")
    ensures r.Ok? ==> |r.value.out| > |st.out| && r.value.out[|st.out|] == "<body>"
    ensures st.look.kind != Keyword ==> r == Err(Halt(MatchFailed(Keyword), st.out))
    ensures st.look.kind == Keyword && st.look.value != "<body>" && NextToken(s, st.pos).Ok? ==>
              r == Err(Halt(ExpectedBody(st.look.value), st.out + ["Expected <body> Recieved: " + st.look.value]))
    ensures r.Ok? ==>
              && |r.value.out| >= |st.out| + 1 + |r.value.stack|
              && r.value.out[|r.value.out| - |r.value.stack|..] == Repeat(UnclosedMessage(r.value.stack), |r.value.stack|)
    ensures Extends(st.out, OutputOf(r))
  {
    var val := st.look.value;
    var st1 :- Match(s, st, Keyword);
    if val != "<body>" then
      Err(Halt(ExpectedBody(val), st1.out + ["Expected <body> Recieved: " + val]))
    else
      WebpageBody(s, st1.(stack := st1.stack + ["<body>"], out := st1.out + [val]))
  }

  /** The rest of `webpage` once `<body>` is open: the main loop, the closing
      `</body>`, and one report line per tag still open, which are the last
      lines printed. */
  function WebpageBody(s: string, st: State): (r: Result<State, Halt>)
    requires Valid(s, st)
    ensures r.Ok? ==>
              && |r.value.out| >= |st.out| + |r.value.stack|
              && r.value.out[|r.value.out| - |r.value.stack|..] == Repeat(UnclosedMessage(r.value.stack), |r.value.stack|)
    ensures Extends(st.out, OutputOf(r))
    ensures r.Ok? ==> Loop(s, st).Ok? && CloseBody(Loop(s, st).value).Ok?
    ensures r.Ok? ==> r.value.stack == CloseBody(Loop(s, st).value).value.stack
  {
    var st2 :- Loop(s, st);
    var st3 :- CloseBody(st2);
    Ok(st3.(out := st3.out + Repeat(UnclosedMessage(st3.stack), |st3.stack|)))
  }

  /** The state `Parser.__init__` builds: the first token read, an empty stack,
      level 0 and nothing printed. */
  function Init(input: string): (r: Result<State, Halt>)
    ensures r.Ok? ==> Valid(Pad(input), r.value) && r.value.stack == [] && r.value.level == 0 && r.value.out == [] && r.value.lists == 0
    ensures r.Ok? ==> Scanned(Pad(input), 0, r.value.look, r.value.pos)
  {
    var s := Pad(input);
    match NextToken(s, 0)
    case Ok(sc) => Ok(State(sc.token, sc.next, [], 0, [], 0))
    case Err(_) => Err(Halt(Overrun, []))
  }

  /** `Parser(input).run()`: the constructor reads the first token, which
      must be the keyword `<body>`; a successful parse prints `<body>` first
      and the reports on unclosed tags last. */
  function Run(input: string): (r: Result<State, Halt>)
    ensures NextToken(Pad(input), 0).Err? ==> r == Err(Halt(Overrun, []))
    ensures r.Ok? ==> NextToken(Pad(input), 0).Ok? && NextToken(Pad(input), 0).value.token == Token(Keyword, "<body>")
    ensures r.Ok? ==> |r.value.out| >= 1 && r.value.out[0] == "<body>"
    ensures r.Ok? ==>
              && |r.value.out| >= |r.value.stack|
              && r.value.out[|r.value.out| - |r.value.stack|..] == Repeat(UnclosedMessage(r.value.stack), |r.value.stack|)
  {
    var st :- Init(input);
    Webpage(Pad(input), st)
  }
}

=== FILE: parser_props.dfy ===
/** Properties of the parser that relate several rules or several steps:
    the indentation invariant of the main loop, stack discipline for closing
    tags, the `<ul>` rule's fixed shape, and the first-token requirement. */
module ParserProps {
  import opened Results
  import opened Tokens
  import opened Lexer
  import opened Parser
  import opened Steps

  /** `webpage` enters its main loop with the invariant established: `<body>`
      alone on the stack, level 0, no `<ul>` yet. */
  lemma WebpageEntersLoopWithInvariant(input: string)
    requires Init(input).Ok?
    requires Match(Pad(input), Init(input).value, Keyword).Ok?
    ensures var st := Match(Pad(input), Init(input).value, Keyword).value;
            LoopInvariant(st.(stack := st.stack + ["<body>"], out := st.out + ["<body>"]))
  {
  }

  /** Stack discipline: a closing tag stops the parse with a stack error
      (empty stack or mismatch) exactly when it does not name the innermost
      open tag. */
  lemma ClosingTagNeedsMatchingTop(s: string, st: State)
    requires Valid(s, st) && st.look.kind == Keyword && IsCloser(st.look.value)
    ensures var r := KeywordStmt(s, st);
            (r.Err? && (r.error.reason == EmptyStack || r.error.reason.MismatchedClose?))
            <==>
            !(|st.stack| > 0 && Drop(st.stack[|st.stack| - 1], 1) == Drop(st.look.value, 2))
  {
    var r := KeywordStmt(s, st);
    if |st.stack| > 0 && Drop(st.stack[|st.stack| - 1], 1) == Drop(st.look.value, 2) {
      assert r.Err? ==> r.error.reason == Overrun;
    }
  }

  /** Outside `<ul>` handling, a closer is printed at the indentation its
      opener was printed at: an opener at level n prints at n and leaves
      level n+1; when the stack, the depth and the `<ul>` count are back to
      what the opener left, its closer drops to n before printing. */
  lemma CloserAlignsWithOpener(s: string, a: State, b: State)
    requires Valid(s, a) && a.look.kind == Keyword && !IsCloser(a.look.value) && a.look.value != "<ul>"
    requires KeywordStmt(s, a).Ok?
    requires Valid(s, b) && b.look.kind == Keyword && IsCloser(b.look.value)
    requires b.stack == KeywordStmt(s, a).value.stack && b.lists == KeywordStmt(s, a).value.lists
    requires Depth(b) == Depth(KeywordStmt(s, a).value)
    requires KeywordStmt(s, b).Ok?
    ensures Drop(a.look.value, 1) == Drop(b.look.value, 2)
    ensures KeywordStmt(s, a).value.out[|a.out|] == Indent(a.level) + a.look.value
    ensures KeywordStmt(s, b).value.out[|b.out|] == Indent(a.level) + b.look.value
  {
    var a' := OpenerPushes(s, a);
    var b' := CloserPops(s, b);
    assert b.level == a'.level;
    assert b.stack[|b.stack| - 1] == a.look.value;
  }

  /** An opener other than `<ul>` is printed at the current level, pushed, and
      raises the level by one. */
  lemma OpenerPushes(s: string, a: State) returns (a': State)
    requires Valid(s, a) && a.look.kind == Keyword && !IsCloser(a.look.value) && a.look.value != "<ul>"
    requires KeywordStmt(s, a).Ok?
    ensures a' == KeywordStmt(s, a).value
    ensures a'.stack == a.stack + [a.look.value] && a'.level == a.level + 1 && a'.lists == a.lists
    ensures a'.out == a.out + [Indent(a.level) + a.look.value]
  {
    a' := KeywordStmt(s, a).value;
  }

  /** A closer that succeeds names the stack top, is printed one level lower,
      and pops exactly the top. */
  lemma CloserPops(s: string, b: State) returns (b': State)
    requires Valid(s, b) && b.look.kind == Keyword && IsCloser(b.look.value)
    requires KeywordStmt(s, b).Ok?
    ensures b' == KeywordStmt(s, b).value
    ensures |b.stack| > 0 && Drop(b.stack[|b.stack| - 1], 1) == Drop(b.look.value, 2)
    ensures b'.stack == b.stack[..|b.stack| - 1] && b'.level == b.level - 1 && b'.lists == b.lists
    ensures b'.out == b.out + [Indent(b.level - 1) + b.look.value]
  {
    b' := KeywordStmt(s, b).value;
  }

  /** `<ul>` followed by the end of input: `<ul>` and `</ul>` are printed, the
      empty text statement changes nothing, and the level is back where it was. */
  lemma ListItemAtEndOfInput(s: string, st: State, p: nat)
    requires Valid(s, st) && st.look == Token(Keyword, "<ul>")
    requires NextToken(s, st.pos) == Ok(Scan(Token(Eoi, ""), p))
    ensures ListItemStmt(s, st) ==
            Ok(st.(look := Token(Eoi, ""), pos := p, out := st.out + [Indent(st.level) + "<ul>", "</ul>"]))
  {
    var line := Indent(st.level) + "<ul>";
    assert st.out + [line] + ["</ul>"] == st.out + [line, "</ul>"];
  }

  /** In a padded input whose only `$` is the end marker, an end-of-input token
      leaves the cursor on the final space, and nothing can be read after it. */
  lemma NothingAfterEndMarker(input: string, pos: nat, p: nat)
    requires '$' !in input && pos < |Pad(input)|
    requires NextToken(Pad(input), pos) == Ok(Scan(Token(Eoi, ""), p))
    ensures p == |Pad(input)| - 1
    ensures NextToken(Pad(input), p).Err?
  {
    var s := Pad(input);
    var q :| pos <= q < |s| && AllSpaces(s, pos, q) && s[q] != ' ' && TokenAt(s, q, Token(Eoi, ""), p);
    assert q == |input|;
  }

  /** `<ul>` at the very end of such an input: the `</ul>` is printed, then
      discarding the token after the (empty) item reads past the end. */
  lemma ListAtEndOfInputOverruns(input: string, st: State, p: nat)
    requires '$' !in input && Valid(Pad(input), st) && st.look == Token(Keyword, "<ul>")
    requires NextToken(Pad(input), st.pos) == Ok(Scan(Token(Eoi, ""), p))
    ensures KeywordStmt(Pad(input), st) == Err(Halt(Overrun, st.out + [Indent(st.level) + "<ul>", "</ul>"]))
  {
    ListItemAtEndOfInput(Pad(input), st, p);
    NothingAfterEndMarker(input, st.pos, p);
  }

  /** `<ul>` with one text item: `<ul>` at level n, the text at n+1, `</ul>`
      unindented, then the token after the item (`t2`, whatever it is) is
      discarded unexamined and the level ends at n+1. */
  lemma ListWithTextDiscardsNextToken(s: string, st: State, x: string, p1: nat, t2: Token, p2: nat, t3: Token, p3: nat)
    requires Valid(s, st) && st.look == Token(Keyword, "<ul>")
    requires NextToken(s, st.pos) == Ok(Scan(Token(Str, x), p1))
    requires p1 < |s| && NextToken(s, p1) == Ok(Scan(t2, p2))
    requires p2 < |s| && NextToken(s, p2) == Ok(Scan(t3, p3))
    ensures KeywordStmt(s, st) ==
            Ok(st.(look := t3, pos := p3,
                   out := st.out + [Indent(st.level) + "<ul>", Indent(st.level + 1) + x, "</ul>"],
                   level := st.level + 1, lists := st.lists + 1))
  {
    var item := ListItemWithText(s, st, x, p1, t2, p2);
    assert item.pos == p2;
    UlStep(s, st, item, t3, p3);
    var out := st.out + [Indent(st.level) + "<ul>", Indent(st.level + 1) + x, "</ul>"];
    assert item.(look := t3, pos := p3, level := item.level + 1, lists := item.lists + 1)
        == State(t3, p3, st.stack, st.level + 1, out, st.lists + 1);
  }

  /** The list item of the lemma above, on its own: it ends with `t2` as the
      lookahead and the level back at n. */
  lemma ListItemWithText(s: string, st: State, x: string, p1: nat, t2: Token, p2: nat) returns (item: State)
    requires Valid(s, st) && st.look == Token(Keyword, "<ul>")
    requires NextToken(s, st.pos) == Ok(Scan(Token(Str, x), p1))
    requires p1 < |s| && NextToken(s, p1) == Ok(Scan(t2, p2))
    ensures item == st.(look := t2, pos := p2,
                        out := st.out + [Indent(st.level) + "<ul>", Indent(st.level + 1) + x, "</ul>"])
    ensures ListItemStmt(s, st) == Ok(item)
  {
    var st0 := st.(look := Token(Str, x), pos := p1, out := st.out + [Indent(st.level) + "<ul>"]);
    assert NextLookahead(s, st.(out := st.out + [Indent(st.level) + "<ul>"])) == Ok(st0);
    var st1 := st0.(level := st0.level + 1);
    TextStep(s, st1, t2, p2);
    var st2 := st1.(look := t2, pos := p2, out := st1.out + [Indent(st1.level) + st1.look.value]);
    ListItemSteps(s, st, st0, st2);
    item := st2.(out := st2.out + ["</ul>"], level := st2.level - 1);
    assert item.out == st.out + [Indent(st.level) + "<ul>", Indent(st.level + 1) + x, "</ul>"];
  }

  /** A parse only succeeds when the first token is the keyword `<body>`, and
      its first output line is then `<body>`. */
  lemma RunNeedsBodyFirst(input: string)
    requires Run(input).Ok?
    ensures NextToken(Pad(input), 0).Ok? && NextToken(Pad(input), 0).value.token == Token(Keyword, "<body>")
    ensures Run(input).value.out[0] == "<body>"
  {
  }

  /** A first keyword other than `<body>` stops the parse with "Expected <body>"
      (once the token after it has been read); a first token that is not a
      keyword at all stops it inside `match`. */
  lemma RunRejectsOtherFirstToken(input: string)
    requires Init(input).Ok?
    ensures var st := Init(input).value;
            st.look.kind != Keyword ==> Run(input) == Err(Halt(MatchFailed(Keyword), []))
    ensures var st := Init(input).value;
            st.look.kind == Keyword && st.look.value != "<body>" && NextToken(Pad(input), st.pos).Ok? ==>
            Run(input) == Err(Halt(ExpectedBody(st.look.value), ["Expected <body> Recieved: " + st.look.value]))
  {
    var st := Init(input).value;
    assert Run(input) == Webpage(Pad(input), st);
    assert [] + ["Expected <body> Recieved: " + st.look.value] == ["Expected <body> Recieved: " + st.look.value];
  }

  /** With `<body>` at the bottom of the stack, as the main loop leaves it when
      no list is open, `</body>` pops exactly that entry and keeps the rest in
      order. */
  lemma CloseBodyAtBottom(st: State)
    requires st.look.value == "</body>" && |st.stack| >= 1 && st.stack[0] == "<body>"
    ensures CloseBody(st) == Ok(st.(out := st.out + ["</body>"], stack := st.stack[1..]))
  {
    assert IndexOf(st.stack, "<body>") == 0;
    assert RemoveFirst(st.stack, "<body>") == st.stack[1..];
  }

  /** `list.remove` takes the first `<body>`, not the last: the later one and
      the tag between them stay, in their order. */
  lemma CloseBodyRemovesFirstBody(st: State)
    requires st.look.value == "</body>" && st.stack == ["<body>", "<b>", "<body>"]
    ensures CloseBody(st) == Ok(st.(out := st.out + ["</body>"], stack := ["<b>", "<body>"]))
  {
    CloseBodyAtBottom(st);
  }

  /** Joining one more string appends the separator and that string. */
  lemma {:induction false} JoinAppend(xs: seq<string>, y: string, sep: string)
    requires |xs| >= 1
    ensures Join(xs + [y], sep) == Join(xs, sep) + sep + y
    decreases |xs|
  {
    if |xs| == 1 {
      assert (xs + [y])[1..] == [y];
    } else {
      assert (xs + [y])[1..] == xs[1..] + [y];
      JoinAppend(xs[1..], y, sep);
    }
  }
}

=== FILE: results.dfy ===
/** A failure-compatible result type, so that the lexer and parser can
    propagate an error with `:-` the way the source lets an exception or
    `sys.exit` unwind every caller. */
module Results {

  datatype Result<+T, +E> = Ok(value: T) | Err(error: E) {

    predicate IsFailure() {
      Err?
    }

    function PropagateFailure<U>(): Result<U, E>
      requires Err?
    {
      Err(error)
    }

    function Extract(): T
      requires Ok?
    {
      value
    }
  }
}

=== FILE: scenarios.dfy ===
/** Six small inputs parsed from end to end, each token read by the lexer
    lemmas and the parse assembled from the document lemmas. */
module Scenarios {
  import opened Results
  import opened Tokens
  import opened Lexer
  import opened Parser
  import opened LexerProps
  import opened ParserProps
  import opened Documents

  lemma GoogleFirst()
    ensures NextToken(Pad("<body>google</body>"), 0) == Ok(Scan(Token(Keyword, "<body>"), 6))
  {
    var s := Pad("<body>google</body>");
    assert s == "<body>google</body>$ ";
    assert s[0..6] == "<body>";
    assert "<body>" == "<" + "body" + ">";
    KeywordIsRecognised(s, 0, 0, "body");
  }

  lemma GoogleSecond()
    ensures NextToken(Pad("<body>google</body>"), 6) == Ok(Scan(Token(Str, "google"), 12))
  {
    var s := Pad("<body>google</body>");
    assert s == "<body>google</body>$ ";
    assert s[6..12] == "google";
    WordIsText(s, 6, 6, 12);
  }

  lemma GoogleThird()
    ensures NextToken(Pad("<body>google</body>"), 12) == Ok(Scan(Token(Keyword, "</body>"), 19))
  {
    var s := Pad("<body>google</body>");
    assert s == "<body>google</body>$ ";
    assert s[12..19] == "</body>";
    assert "</body>" == "<" + "/body" + ">";
    KeywordIsRecognised(s, 12, 12, "/body");
  }

  lemma Google()
    ensures Run("<body>google</body>").Ok?
    ensures Run("<body>google</body>").value.out == ["<body>", "google", "</body>"]
  {
    GoogleFirst();
    GoogleSecond();
    GoogleThird();
    var s := Pad("<body>google</body>");
    var st := State(Token(Keyword, "<body>"), 6, [], 0, [], 0);
    assert Init("<body>google</body>") == Ok(st);
    BodyText(s, st, "google", 12, 19);
  }

  lemma HelloFirst()
    ensures NextToken(Pad("hello<body></body>"), 0) == Ok(Scan(Token(Str, "hello"), 5))
  {
    var s := Pad("hello<body></body>");
    assert s == "hello<body></body>$ ";
    assert s[0..5] == "hello";
    WordIsText(s, 0, 0, 5);
  }

  /** Text before `<body>`: `match` finds no keyword and stops the parse
      with nothing printed. */
  lemma TextBeforeBody()
    ensures Run("hello<body></body>") == Err(Halt(MatchFailed(Keyword), []))
  {
    HelloFirst();
    assert Init("hello<body></body>") == Ok(State(Token(Str, "hello"), 5, [], 0, [], 0));
    RunRejectsOtherFirstToken("hello<body></body>");
  }

  lemma WrongFirst()
    ensures NextToken(Pad("<body><b>hi</i></body>"), 0) == Ok(Scan(Token(Keyword, "<body>"), 6))
  {
    var s := Pad("<body><b>hi</i></body>");
    assert s == "<body><b>hi</i></body>$ ";
    assert s[0..6] == "<body>";
    assert "<body>" == "<" + "body" + ">";
    KeywordIsRecognised(s, 0, 0, "body");
  }

  lemma WrongSecond()
    ensures NextToken(Pad("<body><b>hi</i></body>"), 6) == Ok(Scan(Token(Keyword, "<b>"), 9))
  {
    var s := Pad("<body><b>hi</i></body>");
    assert s == "<body><b>hi</i></body>$ ";
    assert s[6..9] == "<b>";
    assert "<b>" == "<" + "b" + ">";
    KeywordIsRecognised(s, 6, 6, "b");
  }

  lemma WrongThird()
    ensures NextToken(Pad("<body><b>hi</i></body>"), 9) == Ok(Scan(Token(Str, "hi"), 11))
  {
    var s := Pad("<body><b>hi</i></body>");
    assert s == "<body><b>hi</i></body>$ ";
    assert s[9..11] == "hi";
    WordIsText(s, 9, 9, 11);
  }

  lemma WrongFourth()
    ensures NextToken(Pad("<body><b>hi</i></body>"), 11) == Ok(Scan(Token(Keyword, "</i>"), 15))
  {
    var s := Pad("<body><b>hi</i></body>");
    assert s == "<body><b>hi</i></body>$ ";
    assert s[11..15] == "</i>";
    assert "</i>" == "<" + "/i" + ">";
    KeywordIsRecognised(s, 11, 11, "/i");
  }

  lemma WrongCloser()
    ensures Run("<body><b>hi</i></body>") ==
            Err(Halt(MismatchedClose("<b>", "</i>"), ["<body>", "<b>", "  hi", "  " + MismatchMessage("<b>", "</i>")]))
  {
    WrongFirst();
    WrongSecond();
    WrongThird();
    WrongFourth();
    WrongLines();
    RunMismatch("<body><b>hi</i></body>", "<b>", "hi", "</i>", 6, 9, 11, 15);
  }

  lemma WrongLines()
    ensures Drop("<b>", 1) != Drop("</i>", 2)
    ensures ["<body>", "<b>", "  " + "hi", "  " + MismatchMessage("<b>", "</i>")]
         == ["<body>", "<b>", "  hi", "  " + MismatchMessage("<b>", "</i>")]
  {
    assert Drop("<b>", 1) == "b>" && Drop("</i>", 2) == "i>";
    assert "  " + "hi" == "  hi";
  }

  lemma BoldFirst()
    ensures NextToken(Pad("<body><b>hi</b></body>"), 0) == Ok(Scan(Token(Keyword, "<body>"), 6))
  {
    var s := Pad("<body><b>hi</b></body>");
    assert s == "<body><b>hi</b></body>$ ";
    assert s[0..6] == "<body>";
    assert "<body>" == "<" + "body" + ">";
    KeywordIsRecognised(s, 0, 0, "body");
  }

  lemma BoldSecond()
    ensures NextToken(Pad("<body><b>hi</b></body>"), 6) == Ok(Scan(Token(Keyword, "<b>"), 9))
  {
    var s := Pad("<body><b>hi</b></body>");
    assert s == "<body><b>hi</b></body>$ ";
    assert s[6..9] == "<b>";
    assert "<b>" == "<" + "b" + ">";
    KeywordIsRecognised(s, 6, 6, "b");
  }

  lemma BoldThird()
    ensures NextToken(Pad("<body><b>hi</b></body>"), 9) == Ok(Scan(Token(Str, "hi"), 11))
  {
    var s := Pad("<body><b>hi</b></body>");
    assert s == "<body><b>hi</b></body>$ ";
    assert s[9..11] == "hi";
    WordIsText(s, 9, 9, 11);
  }

  lemma BoldFourth()
    ensures NextToken(Pad("<body><b>hi</b></body>"), 11) == Ok(Scan(Token(Keyword, "</b>"), 15))
  {
    var s := Pad("<body><b>hi</b></body>");
    assert s == "<body><b>hi</b></body>$ ";
    assert s[11..15] == "</b>";
    assert "</b>" == "<" + "/b" + ">";
    KeywordIsRecognised(s, 11, 11, "/b");
  }

  lemma BoldFifth()
    ensures NextToken(Pad("<body><b>hi</b></body>"), 15) == Ok(Scan(Token(Keyword, "</body>"), 22))
  {
    var s := Pad("<body><b>hi</b></body>");
    assert s == "<body><b>hi</b></body>$ ";
    assert s[15..22] == "</body>";
    assert "</body>" == "<" + "/body" + ">";
    KeywordIsRecognised(s, 15, 15, "/body");
  }

  lemma BoldText()
    ensures Run("<body><b>hi</b></body>").Ok?
    ensures Run("<body><b>hi</b></body>").value.out == ["<body>", "<b>", "  hi", "</b>", "</body>"]
  {
    BoldFirst();
    BoldSecond();
    BoldThird();
    BoldFourth();
    BoldFifth();
    BoldLines();
    RunNested("<body><b>hi</b></body>", "<b>", "hi", "</b>", 6, 9, 11, 15, 22);
  }

  lemma BoldLines()
    ensures Drop("<b>", 1) == Drop("</b>", 2)
    ensures ["<body>", "<b>", "  " + "hi", "</b>", "</body>"] == ["<body>", "<b>", "  hi", "</b>", "</body>"]
  {
    assert Drop("<b>", 1) == "b>" && Drop("</b>", 2) == "b>";
    assert "  " + "hi" == "  hi";
  }

  lemma ListFirst()
    ensures NextToken(Pad("<body><ul>item</body>"), 0) == Ok(Scan(Token(Keyword, "<body>"), 6))
  {
    var s := Pad("<body><ul>item</body>");
    assert s == "<body><ul>item</body>$ ";
    assert s[0..6] == "<body>";
    assert "<body>" == "<" + "body" + ">";
    KeywordIsRecognised(s, 0, 0, "body");
  }

  lemma ListSecond()
    ensures NextToken(Pad("<body><ul>item</body>"), 6) == Ok(Scan(Token(Keyword, "<ul>"), 10))
  {
    var s := Pad("<body><ul>item</body>");
    assert s == "<body><ul>item</body>$ ";
    assert s[6..10] == "<ul>";
    assert "<ul>" == "<" + "ul" + ">";
    KeywordIsRecognised(s, 6, 6, "ul");
  }

  lemma ListThird()
    ensures NextToken(Pad("<body><ul>item</body>"), 10) == Ok(Scan(Token(Str, "item"), 14))
  {
    var s := Pad("<body><ul>item</body>");
    assert s == "<body><ul>item</body>$ ";
    assert s[10..14] == "item";
    WordIsText(s, 10, 10, 14);
  }

  lemma ListFourth()
    ensures NextToken(Pad("<body><ul>item</body>"), 14) == Ok(Scan(Token(Keyword, "</body>"), 21))
  {
    var s := Pad("<body><ul>item</body>");
    assert s == "<body><ul>item</body>$ ";
    assert s[14..21] == "</body>";
    assert "</body>" == "<" + "/body" + ">";
    KeywordIsRecognised(s, 14, 14, "/body");
  }

  lemma ListFifth()
    ensures NextToken(Pad("<body><ul>item</body>"), 21) == Ok(Scan(Token(Eoi, ""), 22))
  {
    var s := Pad("<body><ul>item</body>");
    assert s == "<body><ul>item</body>$ ";
    DollarIsEndOfInput(s, 21, 21);
  }

  lemma ItemList()
    ensures Run("<body><ul>item</body>").Ok?
    ensures Run("<body><ul>item</body>").value.out ==
            ["<body>", "<ul>", "  item", "</ul>", "ERROR: Expected closing's for tags [<body>] were not found!"]
  {
    ListFirst();
    ListSecond();
    ListThird();
    ListFourth();
    ListFifth();
    var st := State(Token(Keyword, "<body>"), 6, [], 0, [], 0);
    assert Init("<body><ul>item</body>") == Ok(st);
    BodyWithOneItem(Pad("<body><ul>item</body>"), st, "item", 10, 14, Token(Keyword, "</body>"), 21, 22);
    ItemListLines();
  }

  lemma ItemListLines()
    ensures ["<body>", "<ul>", "  " + "item", "</ul>", UnclosedMessage(["<body>"])] ==
            ["<body>", "<ul>", "  item", "</ul>", "ERROR: Expected closing's for tags [<body>] were not found!"]
  {
    assert Join(["<body>"], ",") == "<body>";
    assert UnclosedMessage(["<body>"]) == UnclosedHead + "<body>" + UnclosedTail;
    UnclosedBodyText();
    assert "  " + "item" == "  item";
  }

  lemma UnclosedBodyText()
    ensures UnclosedHead + "<body>" + UnclosedTail == "ERROR: Expected closing's for tags [<body>] were not found!"
  {
  }

  lemma ClosedFirst()
    ensures NextToken(Pad("<body><ul></body>x</body>"), 0) == Ok(Scan(Token(Keyword, "<body>"), 6))
  {
    var s := Pad("<body><ul></body>x</body>");
    assert s == "<body><ul></body>x</body>$ ";
    assert s[0..6] == "<body>";
    assert "<body>" == "<" + "body" + ">";
    KeywordIsRecognised(s, 0, 0, "body");
  }

  lemma ClosedSecond()
    ensures NextToken(Pad("<body><ul></body>x</body>"), 6) == Ok(Scan(Token(Keyword, "<ul>"), 10))
  {
    var s := Pad("<body><ul></body>x</body>");
    assert s == "<body><ul></body>x</body>$ ";
    assert s[6..10] == "<ul>";
    assert "<ul>" == "<" + "ul" + ">";
    KeywordIsRecognised(s, 6, 6, "ul");
  }

  lemma ClosedThird()
    ensures NextToken(Pad("<body><ul></body>x</body>"), 10) == Ok(Scan(Token(Keyword, "</body>"), 17))
  {
    var s := Pad("<body><ul></body>x</body>");
    assert s == "<body><ul></body>x</body>$ ";
    assert s[10..17] == "</body>";
    assert "</body>" == "<" + "/body" + ">";
    KeywordIsRecognised(s, 10, 10, "/body");
  }

  lemma ClosedFourth()
    ensures NextToken(Pad("<body><ul></body>x</body>"), 17) == Ok(Scan(Token(Str, "x"), 18))
  {
    var s := Pad("<body><ul></body>x</body>");
    assert s == "<body><ul></body>x</body>$ ";
    assert s[17..18] == "x";
    WordIsText(s, 17, 17, 18);
  }

  lemma ClosedFifth()
    ensures NextToken(Pad("<body><ul></body>x</body>"), 18) == Ok(Scan(Token(Keyword, "</body>"), 25))
  {
    var s := Pad("<body><ul></body>x</body>");
    assert s == "<body><ul></body>x</body>$ ";
    assert s[18..25] == "</body>";
    assert "</body>" == "<" + "/body" + ">";
    KeywordIsRecognised(s, 18, 18, "/body");
  }

  /** `</body>` as the item of a list closes the body early, so the real
      `</body>` finds no `<body>` to remove and the parse stops there. */
  lemma BodyClosedTwice()
    ensures Run("<body><ul></body>x</body>") == Err(Halt(BodyNotOpen, ["<body>", "<ul>", "</body>", "</ul>", "</body>"]))
  {
    ClosedFirst();
    ClosedSecond();
    ClosedThird();
    ClosedFourth();
    ClosedFifth();
    var st := State(Token(Keyword, "<body>"), 6, [], 0, [], 0);
    assert Init("<body><ul></body>x</body>") == Ok(st);
    ListClosesBody(Pad("<body><ul></body>x</body>"), st, 10, 17, Token(Str, "x"), 18, 25);
  }
}

=== FILE: steps.dfy ===
/** Single steps of the parser, each one unfolding of a rule on a known
    lookahead and a known next token. Whole parses are put together from these. */
module Steps {
  import opened Results
  import opened Tokens
  import opened Lexer
  import opened Parser

  /** One text statement on text: the line is printed, the next token read. */
  lemma TextStep(s: string, st: State, t: Token, p: nat)
    requires Valid(s, st) && st.look.kind == Str
    requires NextToken(s, st.pos) == Ok(Scan(t, p))
    ensures TextStmt(s, st) == Ok(st.(look := t, pos := p, out := st.out + [Indent(st.level) + st.look.value]))
  {
  }

  /** `match` on the expected keyword: the next token becomes the lookahead. */
  lemma MatchStep(s: string, st: State, t: Token, p: nat)
    requires Valid(s, st) && st.look.kind == Keyword
    requires NextToken(s, st.pos) == Ok(Scan(t, p))
    ensures Match(s, st, Keyword) == Ok(st.(look := t, pos := p))
  {
  }

  /** An opening keyword other than `<ul>`: printed, pushed, one level deeper, next token read. */
  lemma OpenerStep(s: string, st: State, t: Token, p: nat)
    requires Valid(s, st) && st.look.kind == Keyword && !IsCloser(st.look.value) && st.look.value != "<ul>"
    requires NextToken(s, st.pos) == Ok(Scan(t, p))
    ensures TextStmt(s, st) == Ok(st.(look := t, pos := p, out := st.out + [Indent(st.level) + st.look.value],
                                      stack := st.stack + [st.look.value], level := st.level + 1))
  {
    OpenTagStep(s, st, t, p);
    assert KeywordStmt(s, st) == OpenTag(s, st);
    assert TextStmt(s, st) == KeywordStmt(s, st);
  }

  lemma OpenTagStep(s: string, st: State, t: Token, p: nat)
    requires Valid(s, st) && st.look.kind == Keyword
    requires NextToken(s, st.pos) == Ok(Scan(t, p))
    ensures OpenTag(s, st) == Ok(st.(look := t, pos := p, out := st.out + [Indent(st.level) + st.look.value],
                                     stack := st.stack + [st.look.value], level := st.level + 1))
  {
    var next := st.(out := st.out + [Indent(st.level) + st.look.value],
                    stack := st.stack + [st.look.value], level := st.level + 1);
    assert OpenTag(s, st) == NextLookahead(s, next);
    assert NextLookahead(s, next) == Ok(next.(look := t, pos := p));
  }

  /** A closer that names the stack top: one level up, printed there, popped, next token read. */
  lemma CloserStep(s: string, st: State, t: Token, p: nat)
    requires Valid(s, st) && st.look.kind == Keyword && IsCloser(st.look.value) && |st.stack| > 0
    requires Drop(st.stack[|st.stack| - 1], 1) == Drop(st.look.value, 2)
    requires NextToken(s, st.pos) == Ok(Scan(t, p))
    ensures TextStmt(s, st) == Ok(st.(look := t, pos := p, level := st.level - 1,
                                      out := st.out + [Indent(st.level - 1) + st.look.value],
                                      stack := st.stack[..|st.stack| - 1]))
  {
    var next := st.(level := st.level - 1, out := st.out + [Indent(st.level - 1) + st.look.value],
                    stack := st.stack[..|st.stack| - 1]);
    assert CloseTag(s, st) == NextLookahead(s, next);
    assert NextLookahead(s, next) == Ok(next.(look := t, pos := p));
    assert TextStmt(s, st) == CloseTag(s, st);
  }

  /** A closer that does not name the stack top: the diagnostic line, then the stop. */
  lemma MismatchStep(s: string, st: State)
    requires Valid(s, st) && st.look.kind == Keyword && IsCloser(st.look.value) && |st.stack| > 0
    requires Drop(st.stack[|st.stack| - 1], 1) != Drop(st.look.value, 2)
    ensures TextStmt(s, st) ==
            Err(Halt(MismatchedClose(st.stack[|st.stack| - 1], st.look.value),
                     st.out + [Indent(st.level) + MismatchMessage(st.stack[|st.stack| - 1], st.look.value)]))
  {
  }

  /** The main loop continues with the state its text statement leaves. */
  lemma LoopStep(s: string, st: State, st1: State)
    requires Valid(s, st) && st.look.value != "</body>" && st.look.kind != Eoi && TextStmt(s, st) == Ok(st1)
    ensures Loop(s, st) == Loop(s, st1)
  {
  }

  /** The main loop stops with the first statement that stops. */
  lemma LoopStopsOnError(s: string, st: State)
    requires Valid(s, st) && st.look.value != "</body>" && st.look.kind != Eoi && TextStmt(s, st).Err?
    ensures Loop(s, st) == TextStmt(s, st)
  {
  }

  /** Text followed by `</body>`: one statement, then the loop ends. */
  lemma TextThenBodyCloser(s: string, st: State, p: nat)
    requires Valid(s, st) && st.look.kind == Str && st.look.value != "</body>"
    requires NextToken(s, st.pos) == Ok(Scan(Token(Keyword, "</body>"), p))
    ensures Loop(s, st) == Ok(st.(look := Token(Keyword, "</body>"), pos := p, out := st.out + [Indent(st.level) + st.look.value]))
  {
    TextStep(s, st, Token(Keyword, "</body>"), p);
    var st1 := st.(look := Token(Keyword, "</body>"), pos := p, out := st.out + [Indent(st.level) + st.look.value]);
    assert Loop(s, st1) == Ok(st1);
  }

  /** A `<ul>` statement that ends at the end of input is the last statement of the loop. */
  lemma ListLoop(s: string, st: State, after: State)
    requires Valid(s, st) && st.look == Token(Keyword, "<ul>")
    requires KeywordStmt(s, st) == Ok(after) && after.look.kind == Eoi
    ensures Loop(s, st) == Ok(after)
  {
    assert TextStmt(s, st) == Ok(after);
    assert Loop(s, after) == Ok(after);
  }

  /** `</body>` when only `<body>` is open: printed, and the stack is empty. */
  lemma CloseOnlyBody(st: State)
    requires st.look.value == "</body>" && st.stack == ["<body>"]
    ensures CloseBody(st) == Ok(st.(out := st.out + ["</body>"], stack := []))
  {
    assert RemoveFirst(["<body>"], "<body>") == [];
  }

  /** `webpage` on `<body>` is `match`, the loop, the closing of the body and the report. */
  lemma WebpageSteps(s: string, st: State, st1: State, st2: State, st3: State)
    requires Valid(s, st) && st.look == Token(Keyword, "<body>")
    requires Match(s, st, Keyword) == Ok(st1)
    requires Valid(s, st1) && Loop(s, st1.(stack := st1.stack + ["<body>"], out := st1.out + ["<body>"])) == Ok(st2)
    requires CloseBody(st2) == Ok(st3)
    ensures Webpage(s, st) == Ok(st3.(out := st3.out + Repeat(UnclosedMessage(st3.stack), |st3.stack|)))
  {
  }

  /** `webpage` stops where its main loop stops. */
  lemma WebpageStopsInLoop(s: string, st: State, st1: State, h: Halt)
    requires Valid(s, st) && st.look == Token(Keyword, "<body>")
    requires Match(s, st, Keyword) == Ok(st1)
    requires Valid(s, st1) && Loop(s, st1.(stack := st1.stack + ["<body>"], out := st1.out + ["<body>"])) == Err(h)
    ensures Webpage(s, st) == Err(h)
  {
  }

  /** `webpage` stops where closing the body stops. */
  lemma WebpageStopsAtClose(s: string, st: State, st1: State, st2: State, h: Halt)
    requires Valid(s, st) && st.look == Token(Keyword, "<body>")
    requires Match(s, st, Keyword) == Ok(st1)
    requires Valid(s, st1) && Loop(s, st1.(stack := st1.stack + ["<body>"], out := st1.out + ["<body>"])) == Ok(st2)
    requires CloseBody(st2) == Err(h)
    ensures Webpage(s, st) == Err(h)
  {
  }

  /** `listItemStmt` is `<ul>` printed, one token read, one text statement one
      level deeper, and `</ul>` printed. */
  lemma ListItemSteps(s: string, st: State, st1: State, st2: State)
    requires Valid(s, st) && st.look == Token(Keyword, "<ul>")
    requires NextLookahead(s, st.(out := st.out + [Indent(st.level) + "<ul>"])) == Ok(st1)
    requires TextStmt(s, st1.(level := st1.level + 1)) == Ok(st2)
    ensures ListItemStmt(s, st) == Ok(st2.(out := st2.out + ["</ul>"], level := st2.level - 1))
  {
    ListItemFields(s, st, st1, st2);
    var r := ListItemStmt(s, st).value;
    assert r == State(st2.look, st2.pos, st2.stack, st2.level - 1, st2.out + ["</ul>"], st2.lists);
  }

  lemma ListItemFields(s: string, st: State, st1: State, st2: State)
    requires Valid(s, st) && st.look == Token(Keyword, "<ul>")
    requires NextLookahead(s, st.(out := st.out + [Indent(st.level) + "<ul>"])) == Ok(st1)
    requires TextStmt(s, st1.(level := st1.level + 1)) == Ok(st2)
    ensures ListItemStmt(s, st).Ok?
    ensures ListItemStmt(s, st).value.look == st2.look && ListItemStmt(s, st).value.pos == st2.pos
    ensures ListItemStmt(s, st).value.stack == st2.stack && ListItemStmt(s, st).value.level == st2.level - 1
    ensures ListItemStmt(s, st).value.out == st2.out + ["</ul>"] && ListItemStmt(s, st).value.lists == st2.lists
  {
  }

  /** A `<ul>` statement is its list item followed by one more level and one
      more token read. */
  lemma UlStep(s: string, st: State, item: State, t: Token, p: nat)
    requires Valid(s, st) && st.look == Token(Keyword, "<ul>")
    requires ListItemStmt(s, st) == Ok(item)
    requires NextToken(s, item.pos) == Ok(Scan(t, p))
    ensures KeywordStmt(s, st) == Ok(item.(look := t, pos := p, level := item.level + 1, lists := item.lists + 1))
  {
    UlFields(s, st, item, t, p);
    var r := KeywordStmt(s, st).value;
    assert r == State(t, p, item.stack, item.level + 1, item.out, item.lists + 1);
  }

  lemma UlFields(s: string, st: State, item: State, t: Token, p: nat)
    requires Valid(s, st) && st.look == Token(Keyword, "<ul>")
    requires ListItemStmt(s, st) == Ok(item)
    requires NextToken(s, item.pos) == Ok(Scan(t, p))
    ensures KeywordStmt(s, st).Ok?
    ensures KeywordStmt(s, st).value.look == t && KeywordStmt(s, st).value.pos == p
    ensures KeywordStmt(s, st).value.stack == item.stack && KeywordStmt(s, st).value.level == item.level + 1
    ensures KeywordStmt(s, st).value.out == item.out && KeywordStmt(s, st).value.lists == item.lists + 1
  {
    assert st.look.value[1] == 'u';
    assert KeywordStmt(s, st) == ListStmt(s, st);
    var next := item.(level := item.level + 1, lists := item.lists + 1);
    var n := NextLookahead(s, next);
    assert n.Ok? && n.value == next.(look := t, pos := p);
  }

  /** An opening keyword inside the main loop: the loop goes on from the state
      the opener leaves. */
  lemma OpenerInLoop(s: string, st: State, t: Token, p: nat) returns (st': State)
    requires Valid(s, st) && st.look.kind == Keyword && !IsCloser(st.look.value) && st.look.value != "<ul>"
    requires NextToken(s, st.pos) == Ok(Scan(t, p))
    ensures Valid(s, st') && st' == st.(look := t, pos := p, out := st.out + [Indent(st.level) + st.look.value],
                                       stack := st.stack + [st.look.value], level := st.level + 1)
    ensures Loop(s, st) == Loop(s, st')
  {
    assert IsKeywordText(st.look.value) && st.look.value[1] != '/';
    OpenerStep(s, st, t, p);
    st' := st.(look := t, pos := p, out := st.out + [Indent(st.level) + st.look.value],
               stack := st.stack + [st.look.value], level := st.level + 1);
    LoopStep(s, st, st');
  }

  /** Text inside the main loop: the loop goes on after the printed line. */
  lemma TextInLoop(s: string, st: State, t: Token, p: nat) returns (st': State)
    requires Valid(s, st) && st.look.kind == Str && st.look.value != "</body>"
    requires NextToken(s, st.pos) == Ok(Scan(t, p))
    ensures Valid(s, st') && st' == st.(look := t, pos := p, out := st.out + [Indent(st.level) + st.look.value])
    ensures Loop(s, st) == Loop(s, st')
  {
    TextStep(s, st, t, p);
    st' := st.(look := t, pos := p, out := st.out + [Indent(st.level) + st.look.value]);
    LoopStep(s, st, st');
  }
}

=== FILE: tokens.dfy ===
/** Tokens and the fixed vocabulary of the markup language (parser.py:10-35). */
module Tokens {

  /** The source's `Constants` enumeration of token kinds. */
  datatype Kind = Invalid | Str | Keyword | Eoi

  /** An immutable token: its kind and the text it carries. */
  datatype Token = Token(kind: Kind, value: string)

  /** The tag names the lexer accepts between `<` and `>`. */
  const KEYWORDS: seq<string> := ["b", "/b", "body", "/body", "i", "/i", "ul", "/ul", "li", "/li"]

  /** `LETTERS`: the 52 ASCII letters `a`-`z` and `A`-`Z`. */
  predicate IsLetter(c: char) {
    'a' <= c <= 'z' || 'A' <= c <= 'Z'
  }

  /** `DIGITS`: the ten ASCII digits. */
  predicate IsDigit(c: char) {
    '0' <= c <= '9'
  }

  /** The two character sets `consumeChars` is called with: `LETTERS+DIGITS`
      for text and `LETTERS+DIGITS+'/'` for a tag name. */
  datatype CharSet = WordChars | TagChars

  predicate InSet(c: char, cs: CharSet) {
    match cs
    case WordChars => IsLetter(c) || IsDigit(c)
    case TagChars => IsLetter(c) || IsDigit(c) || c == '/'
  }

  /** The shape of every keyword token: a name from KEYWORDS in angle brackets. */
  predicate IsKeywordText(v: string) {
    |v| >= 2 && v[0] == '<' && v[|v| - 1] == '>' && v[1..|v| - 1] in KEYWORDS
  }

  /** Every token the lexer hands out satisfies this: keyword tokens are bracketed keywords. */
  predicate WellFormed(t: Token) {
    t.kind == Keyword ==> IsKeywordText(t.value)
  }

  /** A closing tag is a keyword whose second character is `/`. */
  predicate IsCloser(v: string) {
    |v| >= 2 && v[1] == '/'
  }
}
